=== FILE: README.md ===
# nitter-proxy media relay, modelled in Dafny

nitter-proxy sits between a Nitter instance and Twitter's CDN. It relays
images (`/pic/...`), videos and HLS playlists (`/video/{sig}/{url}`) and API
calls. This project models the pure decision logic of that relay and proves
properties about it:

- **Playlist rewriting** (`Playlist`). An HLS playlist is split on line feeds. A
  line containing `URI=` has every `URI="value"` attribute replaced. A line
  starting with `/` is replaced whole. Every other line is kept. Each
  replacement is a signed relay URL: `/video/` + 13-character signature + `/` +
  the query-escaped absolute URL.
- **The video handler** (`Video`). It checks a request in a fixed order:
  1. decode the reference twice: path-decoding, then query-decoding when that succeeds;
  2. coarse sanity check (contains `http` and `.`);
  3. signature check;
  4. dispatch on the extension to one of three paths: raw streams (ETag, header
     forwarding, status gate), playlists, or VMAP documents, whose first
     `url="...m3u8..."` is fetched and rewritten.
- **The image handler** (`Pic`). Turns an image reference of one of three shapes
  into an https URL. Refuses any host other than `twimg.com` or one of its
  subdomains. Handles the original-size flag, the ETag short-circuit, the
  200-only status gate and the header allow-list.
- **Primitives of utils.go**:
  - `createHMAC` (`Signing`, `Hex`);
  - the 64-bit FNV-1a `hash` (`Fnv`) and its decimal ETag (`Relay`, `Decimal`);
  - `checkClose` and `isClientDisconnect` over a chain of wrapped errors (`GoErrors`);
  - `fetchBody` (`Relay`).
- **The API passthrough** (`Api`): `formatURL`, `copyHeaders`, and the response
  header copy that skips Content-Length.

Supporting modules:

- `GoStrings` holds the `strings` package functions used: HasPrefix, HasSuffix, Contains, Cut, Split, Join and TrimLeft. It also holds LastIndex, as `LastIndexByte` because its argument is the single byte `.`, and ToUpper, as `AsciiToUpper` because it is applied only to hex text. `Index` is the search behind `Contains` and `Cut`.
- `Escape` holds net/url's QueryEscape, PathUnescape and QueryUnescape.
- `Urls` holds `url.URL`.

Abstractions:

- Go strings are byte sequences (`seq<Byte>`).
- HMAC-SHA-256 is an uninterpreted function carried by a `Signer`, next to the key.
- url.Parse, URL.String and URL.Hostname are the three functions of a `UrlLib`. The ghost predicate `Urls.Lawful` lists the properties of them that the proofs assume.
- Every upstream exchange is a `Fetcher`: a function from URL and request headers to a reply or a transport error.
- A handler's effect is an `Outcome`, which records:
  - the status, headers and payload;
  - the upstream URLs requested, in order, so "no upstream call" is `fetched == []`;
  - whether a failed body copy was logged.
- The router's path values `sig` and `url` are parameters. Whether the router has already path-decoded `url` is not modelled. Acceptance of minted relay URLs (`Video.MintedUrlAccepted`, `Video.RelativeLineAccepted`, `Video.RewrittenLineAccepted`) is proved for both cases: the escaped segment, and its path-decoding.

One observation about the double decoding in the video handler:

- Relay URLs are minted with QueryEscape. The handler then path-decodes and, when that succeeds, also query-decodes.
- So for a reference holding `+` and no `%` or space, the signature is checked against a different string than the one that was signed. The request is refused unless the two strings happen to share a signature.
- References with no `%` or `+` round-trip. They are accepted when they pass the sanity check, which every relative reference does (`Video.RelativeReferencePassesCoarseCheck`). An absolute reference without a dot, such as `http://localhost/seg`, is refused with 400 "Invalid URL" (`Video.DotlessMintedUrlRefused`).
- These facts are proved: `Video.PlusInReferenceChangesCheckedText`, `Video.MintedUrlAccepted` and `Video.DotlessMintedUrlRefused`.

## Model

| member | source | states |
|---|---|---|
| Fnv.Hash | utils.go:73-77 | The byte loop computes 64-bit FNV-1a (xor, then multiply mod 2^64, from the offset basis); the empty string hashes to the offset basis |
| Fnv.HashIncremental | utils.go:73-77 | Appending a byte to the input costs exactly one more xor-multiply round on the previous hash |
| Fnv.KnownAnswers | utils.go:73-77 | The hash of "" is 14695981039346656037 and the hash of "a" is 0xaf63dc4c8601ec8c, the published FNV-1a test vector |
| Decimal.FormatUint | video.go:66 | strconv.FormatUint base 10 yields non-empty all-digit text with no leading zero |
| Decimal.FormatRoundTrip | video.go:66 | Reading the decimal text back gives the number |
| Decimal.FormatInjective | video.go:66 | Two numbers have the same decimal text exactly when they are equal |
| Relay.Etag | pic.go:65 | The ETag is a non-empty string of decimal digits |
| Relay.EtagCollidesIff | pic.go:65-66 | Two URLs share an ETag exactly when their FNV-1a hashes are equal |
| Relay.EtagMatches | video.go:66-70 | A request without If-None-Match never takes the 304 short-circuit |
| Hex.EncodeToString | utils.go:82 | hex.EncodeToString yields two lower-case digits per byte: byte i becomes digits 2i and 2i+1, its high nibble first |
| Hex.UpperOfEncoding | utils.go:82-83 | Upper-casing the lower-case hex encoding gives the upper-case hex alphabet encoding of the same bytes |
| Signing.CreateHMAC | utils.go:79-84 | The token has exactly 13 characters, all in 0-9A-F, and is the upper-case hex of the first seven MAC bytes cut to 13 digits, a function of key and data only |
| Signing.Verify | video.go:44-47 | A token passes only if it has 13 characters, all from 0-9A-F: tokens of another length or with lower-case or non-hex characters are always refused |
| GoErrors.AsOpError | utils.go:37-38 | errors.As finds an OpError exactly when the chain holds one, and then it is the first OpError of the chain |
| GoErrors.IsClientDisconnect | utils.go:27-46 | A write error counts as a client disconnect exactly when its chain of wrapped errors holds EPIPE, ECONNRESET or context.Canceled |
| GoErrors.ClientDisconnectIff | utils.go:27-46 | Taken clause by clause, the tests hold exactly when EPIPE, ECONNRESET or context.Canceled is on the chain: the net.OpError clause adds nothing, since errors.Is already looks through an OpError |
| GoErrors.CheckClose | utils.go:20-25 | The body is always closed; a pending error is kept; the close error is adopted only when nothing was pending; the result is nil exactly when both were nil |
| Relay.FetchBody | utils.go:48-64 | A URL that does not parse fails before anything is sent; otherwise a transport error is returned as is, any status but 200 gives an empty body and "upstream returned %d", and the call succeeds exactly when the status is 200 and reading and closing both succeed, the body then being the reply's |
| Relay.CopyAllowed | video.go:102-106 | Exactly the listed names with a non-empty upstream value are set, each to its first value, over the existing headers |
| Relay.StreamReply | pic.go:85-97 | The response carries the allow-listed headers plus ETag, the upstream status and body; a copy error is logged unless it is a client disconnect |
| GoStrings.Split | video.go:169 | n separators give n + 1 pieces, none contains the separator, and joining them gives the input back |
| GoStrings.SplitJoin | video.go:169-177 | Splitting undoes joining when no piece contains the separator |
| GoStrings.SplitCount | video.go:169 | The number of pieces is one more than the number of separators |
| GoStrings.Cut | video.go:50 | strings.Cut splits at the first occurrence, reports whether there was one, and the parts reassemble the input |
| GoStrings.TrimLeftByte | api.go:14 | The result is a suffix of the input, everything dropped is the cut byte, and the result does not start with it |
| GoStrings.TrimLeftIdempotent | api.go:14 | Trimming an already trimmed path changes nothing |
| Escape.QueryEscape | video.go:198-199 | The output is no shorter than the input and uses only unreserved bytes, `+` and `%` |
| Escape.QueryRoundTrip | video.go:35-37 | Query-decoding undoes query-encoding for every byte string |
| Escape.PathUnescapeOfQueryEscape | video.go:28-32 | Path-decoding also undoes query-encoding when the text has no space |
| Escape.PathUnescapeOfQueryEscapeAny | video.go:28-32 | In general, path-decoding query-encoded text gives the text back with each space turned into `+` |
| Escape.QueryUnescapeOfSpaceToPlus | video.go:35-37 | Query-decoding turns those `+` back into spaces when the text had no `+` or `%` of its own |
| Escape.PathUnescapeKeepsPlus | video.go:28-37 | A space query-encodes to `+`, which path-decoding keeps and query-decoding turns back into a space |
| Escape.UnescapeSucceedsIff | video.go:28-32 | Decoding fails exactly when some `%` is not followed by two hex digits |
| Escape.UnescapePlain | video.go:28-37 | Text without `%` (and, in query mode, without `+`) decodes to itself |
| Escape.QueryUnescapePlusToSpace | video.go:35-37 | Query-decoding text without `%` turns each `+` into a space and keeps every other byte |
| Escape.QueryUnescapeChangesPlus | video.go:35-37 | The second decoding pass changes any `%`-free text that holds a `+` |
| Escape.QueryEscapeConcat | video.go:198-199 | Query-encoding distributes over concatenation |
| Escape.QueryEscapeUnreserved | video.go:198-199 | Text of unreserved bytes is left as it is |
| Playlist.FullVideoUrl | video.go:193-196 | The full URL starts with "http" and ends with the reference; it is the reference itself exactly when that starts with "http", and otherwise the reference under https://video.twimg.com |
| Playlist.MakeVideoProxyURL | video.go:192-200 | The relay URL is `/video/`, a 13-character signature that verifies against the full URL, `/`, and the escaped full URL, which query-decodes back to the full URL; it holds no line feed or quote |
| Playlist.UriMatchSound | video.go:180 | A match of URI="([^"]+)" captures a non-empty quote-free value, and the matched text is exactly `URI="` value `"` |
| Playlist.UriMatchExact | video.go:180 | Every non-empty quote-free value written as `URI="` value `"` is matched with exactly that value, whatever follows |
| Playlist.ReplaceMatchOfMatch | video.go:183-189 | The callback's fallback is dead: re-matching a match always finds the submatch, so the match becomes `URI="` + relay URL + `"` |
| Playlist.UriMatchIndex | video.go:183 | The scan finds the leftmost position where a match starts, or reports that none starts anywhere |
| Playlist.RewriteExtXMapURI | video.go:182-190 | The rewrite never shortens the line and adds no line feed |
| Playlist.RewriteAtFirstMatch | video.go:182-190 | The text before the leftmost match is copied, the match becomes `URI="` + relay URL + `"`, and matching resumes right after the match, so matches never overlap |
| Playlist.RewriteUnchangedIff | video.go:182-190 | A line is left unchanged exactly when no match starts anywhere in it; otherwise it grows |
| Playlist.UriDirectiveIff | video.go:171 | The `#EXT-X-MAP:URI=` prefix test is subsumed: a line goes to the attribute rewrite exactly when it contains `URI=`, even if it starts with `/` |
| Playlist.RewriteLineFacts | video.go:170-176 | An opaque line is kept byte for byte; a `URI=` line is kept exactly when it has no match; a `/` line always changes; no line gains a line feed |
| Playlist.RewriteM3U8 | video.go:168-178 | The output splits into exactly as many lines as the input, in order, the i-th being the rewrite of the i-th input line |
| Playlist.RewriteM3U8Lines | video.go:168-178 | Lines of the third kind, neither `URI=` directives nor `/` references, come out byte-identical |
| Playlist.RewriteM3U8KeepsLineCount | video.go:168-178 | The playlist keeps its number of line feeds |
| Video.DecodeReference | video.go:28-37 | A reference is refused exactly when some `%` lacks two hex digits; decoding never lengthens it; text without `%` or `+` comes through unchanged; the query-decoded text replaces the path-decoded one only when query-decoding succeeds |
| Video.Extension | video.go:49-50 | The extension has no dot and no `?` |
| Video.ExtensionOfName | video.go:49-50 | A reference whose last dot is followed by ext, optionally followed by a dot-free `?query`, has extension ext |
| Video.RouteOf | video.go:52-62 | mp4, ts and m4s go to the stream path, m3u8 to the playlist path, vmap to the VMAP path, and nothing else to any of them |
| Video.ForwardHeaders | video.go:79-87 | Exactly the non-empty Accept, Accept-Encoding and Range request headers are forwarded, with their first value |
| Video.StreamUpstream | video.go:89-115 | A transport error is a 502; a status above 299 is passed on as an error; otherwise the status and body are relayed, the headers being exactly the ETag plus those allow-listed names the upstream set, with their upstream values, and a copy error is logged unless the client went away |
| Video.ProxyVideoStream | video.go:65-87 | A matching If-None-Match is answered 304 without fetching, and it is the only answer for which the handler writes nothing itself; an unparsable URL is a 400; nothing is fetched exactly in those two cases, and otherwise the URL alone is fetched once with the forwarded headers |
| Video.UpstreamNotModifiedPassedOn | video.go:89-100 | An upstream 304 is handed to http.Error with status 304 and "Upstream Error" after the fetch, so a 304 answer does not by itself mean nothing was fetched |
| Video.ServePlaylist | video.go:125-130 | A rewritten playlist is served as 200 with the HLS media type and no ETag; it has as many lines and line feeds as the fetched one, with opaque lines unchanged; a write error is always logged |
| Video.ProxyM3U8 | video.go:117-131 | Any fetch error, an unparsable URL included, is a 502 "Proxy Error"; otherwise the rewritten body is served; the URL is fetched once exactly when it parses, and nothing else is fetched |
| Video.VmapMatchSound | video.go:133 | A match of url="([^"]+\.m3u8[^"]*)" captures a quote-free value containing ".m3u8", and the matched text is exactly `url="` value `"` |
| Video.VmapMatchExact | video.go:133 | Every quote-free value with ".m3u8" after its first byte is matched with exactly that value |
| Video.FindVmapM3U8 | video.go:143-144 | FindStringSubmatch fails exactly when no match starts anywhere in the document |
| Video.FoundVmapValue | video.go:143-150 | The extracted URL is quote-free, contains ".m3u8", and stands in the document as `url="` URL `"` |
| Video.VmapFindsFirst | video.go:143-150 | The first match is the one extracted, whatever other matches follow |
| Video.ProxyVMAP | video.go:135-164 | A failed VMAP fetch, an unparsable VMAP URL included, is a 502 "Proxy Error"; no match is a 502 "No M3U8 in VMAP"; otherwise the outcome is exactly that of proxyM3U8 on the extracted URL as it stands, after the VMAP request; nothing is fetched exactly when the VMAP URL does not parse, and at most two URLs are fetched, the VMAP URL first |
| Video.Dispatch | video.go:52-62 | Each route goes to its handler; exactly the other extensions get 400 "Unsupported format" |
| Video.VideoHandler | video.go:24-63 | A reference that does not decode or fails the sanity check is a 400; a wrong signature is a 403 whatever the extension; a reference that decodes, passes the check and carries its own signature is dispatched; nothing is fetched otherwise |
| Video.PassesCoarseCheck | video.go:39-42 | A reference passes the sanity check exactly when "http" occurs somewhere in it and it contains a dot |
| Video.RelativeReferencePassesCoarseCheck | video.go:39-42 | The full URL of any reference not starting with "http" passes the sanity check |
| Video.MintedReferenceDecodes | video.go:28-37 | A URL without `%` or `+` survives both decoding passes, whether it arrives query-escaped or as the path-decoding of that, in which each space has become `+`; plain text decodes to itself |
| Video.MintedUrlAccepted | video.go:24-63 | A relay URL minted for a reference without `%` or `+` that passes the sanity check is accepted and dispatched on its full URL, whether the router hands over the escaped segment or its path-decoding |
| Video.DotlessMintedUrlRefused | video.go:28-42 | A minted reference with no dot and no `%` or `+` decodes back to itself and is then refused with 400 "Invalid URL", escaped or path-decoded, whatever the signature |
| Video.PlusInReferenceChangesCheckedText | video.go:35-44 | For a reference holding `+` and no `%` or space, the signature is checked against the query-decoded text, which differs from what was signed |
| Video.RewrittenLineAccepted | video.go:168-178 | A relative line of a rewritten playlist without `%` or `+` becomes a relay URL that the handler accepts and dispatches on the line's URL on the video host, whether the router hands over the escaped segment or its path-decoding |
| Video.RelativeLineAccepted | video.go:192-200 | The relay URL minted for a `/`-leading reference without `%` or `+` is accepted and dispatched on the reference under the video host, for the escaped segment and for its path-decoding |
| Urls.WithQuery | pic.go:45-47 | Setting the query replaces it and leaves scheme, user, host, path and fragment as they were |
| Pic.RawImageUrl | pic.go:25-33 | The three shapes are tried in order: an https URL is kept, text containing "twimg.com/" gets "https://", anything else is put under https://pbs.twimg.com/; every result starts with "https://" |
| Pic.PicBuildURL | pic.go:20-50 | The result is ("", false) unless the reference parses and its host is twimg.com or a subdomain; then it is the printed URL, with the query replaced by "name=orig" exactly when the flag is set |
| Pic.IsAllowedHost | pic.go:40-43 | A host is allowed exactly when it ends in "twimg.com" at a label boundary: it is twimg.com itself or ends in ".twimg.com" |
| Pic.LookalikeHostsRefused | pic.go:40-43 | twimg.com and its subdomains are allowed; eviltwimg.com, twimg.com.evil.com, evil.com and the empty host are not |
| Pic.CdnInPathTakesSecondShape | pic.go:26-30 | A reference that names the CDN only after its first `/`, such as evil.com/twimg.com/x, takes the second shape with its own host |
| Pic.PathMentioningCdnRefused | pic.go:29-43 | Such a reference with a plain host name off the allow-list is refused, whatever its path says |
| Pic.BarePathStaysOnCdn | pic.go:31-43 | A bare path that parses is always accepted on the default image host |
| Pic.PicBuildURLIdempotent | pic.go:27-49 | An accepted result starts with "https://", is accepted again and comes back unchanged, under the same flag or without it |
| Pic.PicRelay | pic.go:72-97 | A transport error is a 502 "Proxy Error"; a status other than 200 is passed on as "Upstream Error"; a 200 is relayed with its body and exactly the ETag plus those of the five listed headers the upstream set, with their upstream values, and a copy error is logged unless the client went away |
| Pic.PicServe | pic.go:65-98 | A matching If-None-Match is a 304, and it is the only case where nothing is fetched; otherwise the URL alone is fetched once, without request headers, and the reply relayed; a relayed body has status 200 and only the listed headers plus the ETag |
| Pic.PicHandler | pic.go:52-63 | An undecodable reference is 400 "Invalid URL"; a refused one is 400 "Invalid Host"; an accepted one is served from its canonical URL under the flag "request path contains orig/", and anything fetched is that URL |
| Pic.PicFetchesOnlyAllowedHosts | pic.go:52-72 | Whatever the client sends, the image relay only fetches URLs whose host is twimg.com or a subdomain of it |
| Api.Normalised | api.go:13-16 | The scheme becomes https, all leading slashes leave the path, and every other field is untouched |
| Api.NormalisedIdempotent | api.go:13-16 | Normalising twice is normalising once |
| Api.FormatURL | api.go:13-17 | The printed URL is that of a URL with scheme https, no leading slash in its path, and the request's host and query; formatting it again prints the same text |
| Api.FormatURLHttps | api.go:13-17 | With a lawful URL library the printed URL starts with "https://" when the host has a name or, as for a server request whose URL has no host, when the path keeps something after its leading slashes |
| Api.CopyHeaders | api.go:19-27 | Every request header except exactly "User-Agent" is copied with its values; nothing is added |
| Api.CopyHeadersSize | api.go:19-27 | The copy has one key fewer exactly when "User-Agent" was present |
| Api.CopyHeadersCaseSensitive | api.go:22 | The match is case-sensitive: a "user-agent" key is forwarded |
| Api.CopyResponseHeaders | api.go:54-61 | Whatever order the map yields its keys, the client gets every reply header but Content-Length that has a value, with its values in order |
| Api.ApiRelay | api.go:46-67 | A transport error is a 502; any reply, whatever its status, is relayed with its headers minus Content-Length |
| Api.ApiHandler | api.go:29-45 | Something is fetched exactly when the path decodes, otherwise the answer is a 400; then the only URL fetched is the request URL printed with scheme https and the decoded path without leading slashes, requested with the filtered headers |

## Left out

- Network I/O is abstracted as a `Fetcher`. This covers `httpClient.Get` and `Do`, the azuretls session, and writing bodies to the client; a write error is a parameter. Redirect following inside the HTTP client is not modelled, so the allowed-host guarantee of `Pic.PicFetchesOnlyAllowedHosts` is about the request the handler makes.
- `copyBody` and its buffer pool are left out: buffer reuse is a resource concern, not a decision.
- Logging through `slog` is left out. Only whether a write error would be logged is recorded.
- SHA-256 and HMAC (RFC 2104) are not modelled. They form an uninterpreted function to 32 bytes; only the hex encoding, upper-casing and truncation are modelled.
- net/url's parser, printer and Hostname are abstracted as a `UrlLib`. `Urls.Lawful` states the assumed properties (https scheme kept, `https://` printed for an https URL with a host or a path, print-then-parse round trip, host of `https://host/...` for a plain host name). http.NewRequest's URL check, in proxyVideoStream and inside httpClient.Get in fetchBody, is modelled as `parse` succeeding; the text of the parse error is not modelled.
- ServeMux path matching and unescaping are left out. The path values are parameters, and acceptance of minted URLs is proved for both escaped and unescaped values.
- Header keys are assumed to be in canonical form already. `Header.Get` and `Set` canonicalisation is not modelled.
- Real errno values are left out. Errors form an abstract chain (`GoErrors.Error`).
- Relay.Fail and Relay.StreamReply: net/http's suppression of the body for status 304, 204 and 1xx is not modelled. A payload is what the handler hands to http.Error or copies from upstream, so an upstream 304 or 204 that a stream handler passes on carries its error text or body in the outcome although the client receives none.
- http.Error's own headers (Content-Type, X-Content-Type-Options) are not modelled. A failed response (`Relay.Fail`) is its status and message only.
- The close error of a relayed reply body is dropped by the handlers (the deferred `checkClose` writes to a variable nobody reads), so it is not part of any outcome.
- config.go (flag and TOML parsing) is not part of this model. The HMAC key is a field of `Signer`.
- main.go is not part of this model. It repeats `hash`, `formatURL` and `copyHeaders` in an older form.

=== FILE: api.dfy ===
/** The API passthrough of api.go: the upstream URL is the request URL with
    its path replaced and normalised (`formatURL`), the client's headers are
    forwarded without User-Agent (`copyHeaders`), and the reply's headers
    come back without Content-Length. */
module Api {
  import opened Wrappers
  import opened GoStrings
  import opened GoErrors
  import opened Escape
  import opened Urls
  import opened Relay

  const UserAgentKey: GoString := "User-Agent"
  const ContentLengthKey: GoString := "Content-Length"

  /** The URL formatURL prints: leading slashes stripped from the path and
      the scheme set to https, every other field as it was. */
  function Normalised(u: Url): (r: Url)
    ensures r.scheme == "https"
    ensures r.path == TrimLeftByte(u.path, '/') && (r.path == [] || r.path[0] != '/')
    ensures r.user == u.user && r.host == u.host && r.rawQuery == u.rawQuery && r.fragment == u.fragment
  {
    u.(path := TrimLeftByte(u.path, '/'), scheme := "https")
  }

  /** formatURL: what is printed is a URL with scheme https and no leading
      slash in its path, on the same host with the same query; formatting
      that URL again prints the same text. */
  function FormatURL(lib: UrlLib, u: Url): (r: GoString)
    ensures var n := Normalised(u);
      && r == lib.format(n)
      && n.scheme == "https" && (n.path == [] || n.path[0] != '/')
      && n.host == u.host && n.rawQuery == u.rawQuery
    ensures lib.format(Normalised(Normalised(u))) == r
  {
    NormalisedIdempotent(u);
    lib.format(Normalised(u))
  }

  /** With a lawful URL library the text starts with "https://" when the
      host has a name or, as for a server request whose URL has no host,
      when the path keeps something after its leading slashes. */
  lemma FormatURLHttps(lib: UrlLib, u: Url)
    requires Lawful(lib)
    requires Hostname(lib, u) != "" || TrimLeftByte(u.path, '/') != []
    ensures HasPrefix(FormatURL(lib, u), HttpsPrefix)
  {
    assert Hostname(lib, Normalised(u)) == Hostname(lib, u);
  }

  /** Normalising twice is normalising once. */
  lemma NormalisedIdempotent(u: Url)
    ensures Normalised(Normalised(u)) == Normalised(u)
  {
    TrimLeftIdempotent(u.path, '/');
  }

  /** copyHeaders: every request header except the exact key "User-Agent",
      values untouched, nothing added. */
  function CopyHeaders(h: Header): (r: Header)
    ensures forall k :: k in r <==> k in h && k != UserAgentKey
    ensures forall k | k in r :: r[k] == h[k]
  {
    map k | k in h && k != UserAgentKey :: h[k]
  }

  /** The output has one key fewer exactly when User-Agent was present. */
  lemma CopyHeadersSize(h: Header)
    ensures UserAgentKey in h ==> |CopyHeaders(h)| == |h| - 1
    ensures UserAgentKey !in h ==> |CopyHeaders(h)| == |h|
  {
    var r := CopyHeaders(h);
    assert r.Keys == h.Keys - {UserAgentKey};
    if UserAgentKey !in h {
      assert r.Keys == h.Keys;
    }
  }

  /** The match is exact: a lower-case "user-agent" key is forwarded. */
  lemma CopyHeadersCaseSensitive(h: Header)
    requires "user-agent" in h
    ensures "user-agent" in CopyHeaders(h) && CopyHeaders(h)["user-agent"] == h["user-agent"]
  {
    assert "user-agent" != UserAgentKey by { assert "user-agent"[0] != UserAgentKey[0]; }
  }

  /** The reply headers as the client receives them: every key but
      Content-Length that has at least one value, with its values in order. */
  function ResponseHeaders(src: Header): (r: Header)
    ensures forall k :: k in r <==> k in src && k != ContentLengthKey && |src[k]| > 0
  {
    map k | k in src && k != ContentLengthKey && |src[k]| > 0 :: src[k]
  }

  /** The copy loop of apiProxyHandler: for each reply header in whatever
      order the map yields them, skip Content-Length, else Add each value in
      turn to the (initially empty) response headers. Whatever the order,
      the result is ResponseHeaders. */
  method CopyResponseHeaders(src: Header) returns (dst: Header)
    ensures dst == ResponseHeaders(src)
  {
    dst := map[];
    var remaining := src.Keys;
    while remaining != {}
      invariant remaining <= src.Keys
      invariant forall k :: k in dst <==> k in src && k !in remaining && k != ContentLengthKey && |src[k]| > 0
      invariant forall k | k in dst :: dst[k] == src[k]
      decreases |remaining|
    {
      var k :| k in remaining;
      remaining := remaining - {k};
      if k != ContentLengthKey {
        var values := src[k];
        var before := dst;
        var i := 0;
        while i < |values|
          invariant 0 <= i <= |values|
          invariant k !in before
          invariant forall j | j != k :: (j in dst <==> j in before)
          invariant forall j | j != k && j in dst :: dst[j] == before[j]
          invariant i == 0 ==> k !in dst
          invariant i > 0 ==> k in dst && dst[k] == values[..i]
        {
          dst := dst[k := (if k in dst then dst[k] else []) + [values[i]]];
          i := i + 1;
        }
        assert values[..|values|] == values;
      }
    }
    assert dst.Keys == ResponseHeaders(src).Keys;
  }

  /** The answer of apiProxyHandler once the upstream was asked: a transport
      failure is a 502, and any reply, whatever its status, is relayed with
      its headers minus Content-Length. There is no status gate and no ETag. */
  function ApiRelay(target: GoString, up: Upstream, copyErr: Option<Error>): (o: Outcome)
    ensures o.fetched == [target]
    ensures up.Unreachable? ==> o == Fail(StatusBadGateway, "Proxy Error", [target])
    ensures up.Reply? ==> o.status == up.status && o.payload == Stream(up.body) && o.header == ResponseHeaders(up.header)
    ensures up.Reply? ==> (o.writeErrorLogged <==> copyErr.Some? && !IsClientDisconnect(copyErr.value))
  {
    match up
    case Unreachable(_) => Fail(StatusBadGateway, "Proxy Error", [target])
    case Reply(status, header, body, _, _) =>
      Outcome(status, ResponseHeaders(header), Stream(body), [target], copyErr.Some? && !IsClientDisconnect(copyErr.value))
  }

  /** apiProxyHandler. A path that does not decode is a 400 before any
      upstream call; otherwise the request URL, with the decoded path, is
      normalised and requested once with the filtered request headers. */
  function ApiHandler(lib: UrlLib, rawPath: GoString, reqUrl: Url, reqHeader: Header,
                      session: Fetcher, copyErr: Option<Error>): (o: Outcome)
    ensures PathUnescape(rawPath).None? ==> o == Fail(StatusBadRequest, "Invalid URL", [])
    ensures PathUnescape(rawPath).Some? ==>
      var target := FormatURL(lib, reqUrl.(path := PathUnescape(rawPath).value));
      o == ApiRelay(target, session(target, CopyHeaders(reqHeader)), copyErr)
    ensures o.fetched != [] <==> PathUnescape(rawPath).Some?
    ensures o.fetched != [] ==>
      o.fetched == [lib.format(Url("https", reqUrl.user, reqUrl.host, TrimLeftByte(PathUnescape(rawPath).value, '/'),
                                   reqUrl.rawQuery, reqUrl.fragment))]
  {
    match PathUnescape(rawPath)
    case None => Fail(StatusBadRequest, "Invalid URL", [])
    case Some(path) =>
      var target := FormatURL(lib, reqUrl.(path := path));
      ApiRelay(target, session(target, CopyHeaders(reqHeader)), copyErr)
  }
}

=== FILE: decimal.dfy ===
/** strconv.FormatUint(n, 10): the decimal text of an unsigned number, and its
    inverse, which shows that the text determines the number. */
module Decimal {
  import opened GoStrings

  predicate IsDigit(c: Byte) {
    '0' <= c <= '9'
  }

  function DigitValue(c: Byte): (d: nat)
    requires IsDigit(c)
    ensures d < 10
  {
    c as int - '0' as int
  }

  function DigitChar(d: int): (c: Byte)
    requires 0 <= d < 10
    ensures IsDigit(c)
  {
    ('0' as int + d) as char
  }

  /** Decimal text without leading zeros ("0" for zero). */
  function FormatUint(n: nat): (r: GoString)
    ensures |r| >= 1
    ensures forall k | 0 <= k < |r| :: IsDigit(r[k])
    ensures r[0] == '0' ==> n == 0
  {
    if n < 10 then [DigitChar(n)]
    else FormatUint(n / 10) + [DigitChar(n % 10)]
  }

  /** The value of a string of decimal digits. */
  function ParseDigits(s: GoString): nat
    requires forall k | 0 <= k < |s| :: IsDigit(s[k])
  {
    if |s| == 0 then 0
    else 10 * ParseDigits(s[..|s| - 1]) + DigitValue(s[|s| - 1])
  }

  /** Reading the decimal text back gives the number. */
  lemma {:induction false} FormatRoundTrip(n: nat)
    ensures ParseDigits(FormatUint(n)) == n
    decreases n
  {
    if n >= 10 {
      FormatRoundTrip(n / 10);
      var r := FormatUint(n);
      assert r[..|r| - 1] == FormatUint(n / 10);
    }
  }

  /** Distinct numbers have distinct decimal texts. */
  lemma FormatInjective(m: nat, n: nat)
    ensures FormatUint(m) == FormatUint(n) <==> m == n
  {
    if FormatUint(m) == FormatUint(n) {
      FormatRoundTrip(m);
      FormatRoundTrip(n);
    }
  }
}

=== FILE: errors.dfy ===
/** Go error values as far as the relay inspects them: a chain of wrapped
    errors walked by errors.Is and errors.As, the client-disconnect
    classification of `isClientDisconnect`, and the error merging of
    `checkClose` (both in utils.go). Real errno numbers are not modelled. */
module GoErrors {
  import opened Wrappers
  import opened GoStrings

  datatype Errno = EPIPE | ECONNRESET | OtherErrno(code: nat)

  datatype Error =
    | SysErrno(errno: Errno)                        // a syscall.Errno
    | Canceled                                      // context.Canceled
    | OpError(op: GoString, err: Error)             // *net.OpError, unwraps to err
    | SyscallError(syscall: GoString, err: Error)   // *os.SyscallError, unwraps to err
    | Wrapped(msg: GoString, err: Error)            // fmt.Errorf with %w
    | Message(msg: GoString)                        // a leaf error without Unwrap
    | UpstreamStatus(code: int)                     // fetchBody's "upstream returned %d"

  /** The error itself followed by everything Unwrap reaches from it. */
  function Chain(e: Error): (c: seq<Error>)
    ensures |c| >= 1 && c[0] == e
  {
    match e
    case OpError(_, inner) => [e] + Chain(inner)
    case SyscallError(_, inner) => [e] + Chain(inner)
    case Wrapped(_, inner) => [e] + Chain(inner)
    case _ => [e]
  }

  /** errors.Is against a comparable sentinel: some error of the chain equals it. */
  predicate Is(e: Error, target: Error) {
    target in Chain(e)
  }

  /** errors.As with a *net.OpError target: the first OpError of the chain,
      and none when the chain holds no OpError. */
  function AsOpError(e: Error): (r: Option<Error>)
    ensures r.Some? ==> r.value.OpError? && r.value in Chain(e)
    ensures r.None? <==> forall i | 0 <= i < |Chain(e)| :: !Chain(e)[i].OpError?
    ensures r.Some? ==> FirstOpErrorAt(Chain(e), r.value)
  {
    match e
    case OpError(_, _) => Some(e)
    case SyscallError(_, inner) =>
      FirstOpErrorPastHead(e, Chain(inner), AsOpError(inner));
      AsOpError(inner)
    case Wrapped(_, inner) =>
      FirstOpErrorPastHead(e, Chain(inner), AsOpError(inner));
      AsOpError(inner)
    case _ => None
  }

  /** `x` stands in chain `c` at a position before which there is no OpError. */
  predicate FirstOpErrorAt(c: seq<Error>, x: Error) {
    exists i | 0 <= i < |c| :: c[i] == x && forall j | 0 <= j < i :: !c[j].OpError?
  }

  /** A head that is not an OpError moves the first OpError one place on. */
  lemma FirstOpErrorPastHead(e: Error, c: seq<Error>, r: Option<Error>)
    requires !e.OpError?
    requires r.Some? ==> FirstOpErrorAt(c, r.value)
    ensures r.Some? ==> FirstOpErrorAt([e] + c, r.value)
  {
    if r.Some? {
      var i :| 0 <= i < |c| && c[i] == r.value && forall j | 0 <= j < i :: !c[j].OpError?;
      var c' := [e] + c;
      assert c'[i + 1] == r.value;
      assert forall j | 0 <= j < i + 1 :: !c'[j].OpError? by {
        forall j | 0 <= j < i + 1 ensures !c'[j].OpError? {
          if j > 0 { assert c'[j] == c[j - 1]; }
        }
      }
    }
  }

  /** isClientDisconnect: a write error means the client went away exactly
      when its chain holds EPIPE, ECONNRESET or context.Canceled. */
  predicate IsClientDisconnect(e: Error)
    ensures IsClientDisconnect(e) <==> exists x :: x in Chain(e) && IsDisconnectCause(x)
  {
    ClientDisconnectIff(e);
    DisconnectClauses(e)
  }

  /** The tests of isClientDisconnect, clause by clause, in their order. */
  predicate DisconnectClauses(e: Error) {
    if Is(e, SysErrno(EPIPE)) || Is(e, SysErrno(ECONNRESET)) then true
    else if Is(e, Canceled) then true
    else
      match AsOpError(e)
      case Some(op) => Is(op.err, SysErrno(EPIPE)) || Is(op.err, SysErrno(ECONNRESET))
      case None => false
  }

  /** The errors that mean the client went away. */
  predicate IsDisconnectCause(x: Error) {
    x == SysErrno(EPIPE) || x == SysErrno(ECONNRESET) || x == Canceled
  }

  /** Everything reachable from a member of the chain is in the chain. */
  lemma {:induction false} ChainClosed(e: Error, x: Error, y: Error)
    requires x in Chain(e)
    requires y in Chain(x)
    ensures y in Chain(e)
  {
    if x != e {
      match e
      case OpError(_, inner) => ChainClosed(inner, x, y);
      case SyscallError(_, inner) => ChainClosed(inner, x, y);
      case Wrapped(_, inner) => ChainClosed(inner, x, y);
    }
  }

  /** The net.OpError clause adds nothing: errors.Is already looks through
      an OpError. A write error is a client disconnect exactly when its chain
      holds EPIPE, ECONNRESET or context.Canceled. */
  lemma ClientDisconnectIff(e: Error)
    ensures DisconnectClauses(e) <==> exists x :: x in Chain(e) && IsDisconnectCause(x)
  {
    if DisconnectClauses(e) {
      if Is(e, SysErrno(EPIPE)) {
        assert IsDisconnectCause(SysErrno(EPIPE));
      } else if Is(e, SysErrno(ECONNRESET)) {
        assert IsDisconnectCause(SysErrno(ECONNRESET));
      } else if Is(e, Canceled) {
        assert IsDisconnectCause(Canceled);
      } else {
        var op := AsOpError(e).value;
        assert Chain(op) == [op] + Chain(op.err);
        if Is(op.err, SysErrno(EPIPE)) {
          ChainClosed(e, op, SysErrno(EPIPE));
        } else {
          ChainClosed(e, op, SysErrno(ECONNRESET));
        }
      }
    }
    if exists x :: x in Chain(e) && IsDisconnectCause(x) {
      var x :| x in Chain(e) && IsDisconnectCause(x);
      assert Is(e, x);
    }
  }

  /** A closable upstream body. */
  datatype Closer = Closer(isOpen: bool, closeErr: Option<Error>)

  /** checkClose: closes the body, then keeps a pending error and adopts the
      close error only when nothing was pending. */
  function CheckClose(c: Closer, pending: Option<Error>): (r: (Closer, Option<Error>))
    ensures !r.0.isOpen && r.0.closeErr == c.closeErr
    ensures pending.Some? ==> r.1 == pending
    ensures pending.None? ==> r.1 == c.closeErr
    ensures r.1.None? <==> pending.None? && c.closeErr.None?
  {
    (Closer(false, c.closeErr), if pending.None? then c.closeErr else pending)
  }
}

=== FILE: escape.dfy ===
/** Percent-encoding as Go's net/url does it: QueryEscape (the encoder for a
    query component), and the decoders PathUnescape and QueryUnescape.

    In a query component every byte other than an ASCII letter, digit or one
    of `-_.~` is escaped as `%XX` with upper-case digits, except the space,
    which becomes `+`. Decoding turns each `%XX` back into a byte, fails on a
    `%` not followed by two hex digits, and, for queries only, turns `+` into
    a space. */
module Escape {
  import opened Wrappers
  import opened GoStrings
  import opened Hex

  /** The unreserved characters of section 2.3 of RFC 3986: never escaped. */
  predicate IsUnreserved(c: Byte) {
    'a' <= c <= 'z' || 'A' <= c <= 'Z' || '0' <= c <= '9' || c == '-' || c == '_' || c == '.' || c == '~'
  }

  /** The bytes QueryEscape may emit. */
  predicate IsEscapedByte(c: Byte) {
    IsUnreserved(c) || c == '+' || c == '%'
  }

  function EscapeByte(c: Byte): (r: GoString)
    ensures 1 <= |r| <= 3
    ensures forall k | 0 <= k < |r| :: IsEscapedByte(r[k])
  {
    if c == ' ' then "+"
    else if IsUnreserved(c) then [c]
    else ['%', UpperDigit(c as int / 16), UpperDigit(c as int % 16)]
  }

  /** url.QueryEscape. Its output never holds a line break, a quote or a
      space, and is at least as long as its input. */
  function QueryEscape(s: GoString): (r: GoString)
    ensures |r| >= |s|
    ensures forall k | 0 <= k < |r| :: IsEscapedByte(r[k])
  {
    if |s| == 0 then []
    else
      var head := EscapeByte(s[0]);
      var tail := QueryEscape(s[1..]);
      assert forall k | |head| <= k < |head| + |tail| :: (head + tail)[k] == tail[k - |head|];
      head + tail
  }

  /** The shared decoder of net/url: `plusIsSpace` selects query mode. */
  function Unescape(s: GoString, plusIsSpace: bool): (r: Option<GoString>)
    ensures r.Some? ==> |r.value| <= |s|
    decreases |s|
  {
    if |s| == 0 then Some([])
    else if s[0] == '%' then
      if |s| < 3 || !IsHexDigit(s[1]) || !IsHexDigit(s[2]) then None
      else
        match Unescape(s[3..], plusIsSpace)
        case None => None
        case Some(t) => Some([(Unhex(s[1]) * 16 + Unhex(s[2])) as char] + t)
    else
      match Unescape(s[1..], plusIsSpace)
      case None => None
      case Some(t) => Some([if s[0] == '+' && plusIsSpace then ' ' else s[0]] + t)
  }

  /** url.PathUnescape: `+` is kept as it is. */
  function PathUnescape(s: GoString): Option<GoString> {
    Unescape(s, false)
  }

  /** url.QueryUnescape: `+` decodes to a space. */
  function QueryUnescape(s: GoString): Option<GoString> {
    Unescape(s, true)
  }

  /** Decoding fails exactly when some `%` lacks two hex digits after it. */
  predicate WellEscaped(s: GoString) {
    forall k | 0 <= k < |s| && s[k] == '%' :: k + 2 < |s| && IsHexDigit(s[k + 1]) && IsHexDigit(s[k + 2])
  }

  /** A string with no `%` (and, in query mode, no `+`) decodes to itself. */
  lemma {:induction false} UnescapePlain(s: GoString, plusIsSpace: bool)
    requires '%' !in s
    requires plusIsSpace ==> '+' !in s
    ensures Unescape(s, plusIsSpace) == Some(s)
    decreases |s|
  {
    if |s| > 0 {
      assert s[0] in s;
      assert forall c :: c in s[1..] ==> c in s;
      UnescapePlain(s[1..], plusIsSpace);
      assert [s[0]] + s[1..] == s;
    }
  }

  /** Decoding one escaped byte in front of any text. */
  lemma UnescapeEscapedByte(c: Byte, rest: GoString, plusIsSpace: bool)
    requires c != ' ' || plusIsSpace
    ensures Unescape(EscapeByte(c) + rest, plusIsSpace) ==
      match Unescape(rest, plusIsSpace)
      case None => None
      case Some(t) => Some([c] + t)
  {
    var e := EscapeByte(c) + rest;
    if c == ' ' {
      assert e[0] == '+' && e[1..] == rest;
    } else if IsUnreserved(c) {
      assert e[0] == c && e[1..] == rest;
    } else {
      assert e[0] == '%' && e[3..] == rest;
      assert e[1] == UpperDigit(c as int / 16) && e[2] == UpperDigit(c as int % 16);
      assert (Unhex(e[1]) * 16 + Unhex(e[2])) as char == c;
    }
  }

  /** Query-decoding undoes query-encoding, for every byte string. */
  lemma {:induction false} QueryRoundTrip(s: GoString)
    ensures QueryUnescape(QueryEscape(s)) == Some(s)
    decreases |s|
  {
    if |s| > 0 {
      QueryRoundTrip(s[1..]);
      UnescapeEscapedByte(s[0], QueryEscape(s[1..]), true);
      assert [s[0]] + s[1..] == s;
    }
  }

  /** Every space replaced by `+`, every other byte kept. */
  function SpaceToPlus(s: GoString): (r: GoString)
    ensures |r| == |s|
    ensures forall k | 0 <= k < |s| :: r[k] == if s[k] == ' ' then '+' else s[k]
  {
    if |s| == 0 then [] else [if s[0] == ' ' then '+' else s[0]] + SpaceToPlus(s[1..])
  }

  /** In general path-decoding query-encoded text gives the text back with
      each space turned into a `+`. */
  lemma {:induction false} PathUnescapeOfQueryEscapeAny(s: GoString)
    ensures PathUnescape(QueryEscape(s)) == Some(SpaceToPlus(s))
    decreases |s|
  {
    if |s| > 0 {
      PathUnescapeOfQueryEscapeAny(s[1..]);
      var rest := QueryEscape(s[1..]);
      if s[0] == ' ' {
        var e := EscapeByte(s[0]) + rest;
        assert e[0] == '+' && e[1..] == rest;
      } else {
        UnescapeEscapedByte(s[0], rest, false);
      }
      assert SpaceToPlus(s)[1..] == SpaceToPlus(s[1..]);
      assert SpaceToPlus(s) == [SpaceToPlus(s)[0]] + SpaceToPlus(s)[1..];
    }
  }

  /** Path-decoding also undoes query-encoding, as long as there was no space
      (which query-encoding turns into a `+` that path-decoding keeps). */
  lemma PathUnescapeOfQueryEscape(s: GoString)
    requires ' ' !in s
    ensures PathUnescape(QueryEscape(s)) == Some(s)
  {
    PathUnescapeOfQueryEscapeAny(s);
    assert SpaceToPlus(s) == s by {
      forall k | 0 <= k < |s| ensures s[k] != ' ' {
        assert s[k] in s;
      }
    }
  }

  /** Query-decoding turns those `+` back into spaces, when the text had no
      `+` or `%` of its own. */
  lemma {:induction false} QueryUnescapeOfSpaceToPlus(s: GoString)
    requires '%' !in s && '+' !in s
    ensures QueryUnescape(SpaceToPlus(s)) == Some(s)
    decreases |s|
  {
    if |s| > 0 {
      assert s[0] in s;
      assert forall c :: c in s[1..] ==> c in s;
      QueryUnescapeOfSpaceToPlus(s[1..]);
      var t := SpaceToPlus(s);
      assert t[1..] == SpaceToPlus(s[1..]);
      assert [s[0]] + s[1..] == s;
    }
  }

  /** A space turns into a `+` that path-decoding keeps: the two decoders differ. */
  lemma PathUnescapeKeepsPlus()
    ensures QueryEscape(" ") == "+"
    ensures PathUnescape(QueryEscape(" ")) == Some("+")
    ensures QueryUnescape(QueryEscape(" ")) == Some(" ")
  {
    assert QueryEscape(" ") == EscapeByte(' ') + QueryEscape([]);
    QueryRoundTrip(" ");
  }

  /** Decoding succeeds exactly on well-escaped text. */
  lemma {:induction false} UnescapeSucceedsIff(s: GoString, plusIsSpace: bool)
    ensures Unescape(s, plusIsSpace).Some? <==> WellEscaped(s)
    decreases |s|
  {
    if |s| > 0 {
      if s[0] == '%' && |s| >= 3 && IsHexDigit(s[1]) && IsHexDigit(s[2]) {
        UnescapeSucceedsIff(s[3..], plusIsSpace);
        ShiftWellEscaped(s, 3);
      } else if s[0] != '%' {
        UnescapeSucceedsIff(s[1..], plusIsSpace);
        ShiftWellEscaped(s, 1);
      }
    }
  }

  /** Well-escapedness of `s` when its first `n` bytes are a correct head. */
  lemma ShiftWellEscaped(s: GoString, n: nat)
    requires n == 1 || n == 3
    requires n <= |s|
    requires n == 1 ==> s[0] != '%'
    requires n == 3 ==> s[0] == '%' && IsHexDigit(s[1]) && IsHexDigit(s[2])
    ensures WellEscaped(s) <==> WellEscaped(s[n..])
  {
    var t := s[n..];
    if WellEscaped(s) {
      forall k | 0 <= k < |t| && t[k] == '%'
        ensures k + 2 < |t| && IsHexDigit(t[k + 1]) && IsHexDigit(t[k + 2])
      {
        assert s[k + n] == '%';
      }
    }
    if WellEscaped(t) {
      forall k | 0 <= k < |s| && s[k] == '%'
        ensures k + 2 < |s| && IsHexDigit(s[k + 1]) && IsHexDigit(s[k + 2])
      {
        if k >= n {
          assert t[k - n] == '%';
        }
      }
    }
  }

  /** Query-decoding text without `%` replaces each `+` by a space and keeps
      every other byte. */
  lemma {:induction false} QueryUnescapePlusToSpace(s: GoString)
    requires '%' !in s
    ensures QueryUnescape(s).Some? && |QueryUnescape(s).value| == |s|
    ensures forall k | 0 <= k < |s| :: QueryUnescape(s).value[k] == if s[k] == '+' then ' ' else s[k]
    decreases |s|
  {
    if |s| > 0 {
      assert s[0] in s;
      assert forall c :: c in s[1..] ==> c in s;
      QueryUnescapePlusToSpace(s[1..]);
      var t := QueryUnescape(s[1..]).value;
      var r := QueryUnescape(s).value;
      assert r == [if s[0] == '+' then ' ' else s[0]] + t;
      forall k | 1 <= k < |s| ensures r[k] == if s[k] == '+' then ' ' else s[k] {
        assert r[k] == t[k - 1] && s[1..][k - 1] == s[k];
      }
    }
  }

  /** So the second decoding pass changes any text holding a `+`. */
  lemma QueryUnescapeChangesPlus(s: GoString)
    requires '%' !in s && '+' in s
    ensures QueryUnescape(s) != Some(s)
  {
    QueryUnescapePlusToSpace(s);
    var k :| 0 <= k < |s| && s[k] == '+';
  }

  /** QueryEscape works byte by byte, so it distributes over concatenation. */
  lemma {:induction false} QueryEscapeConcat(a: GoString, b: GoString)
    ensures QueryEscape(a + b) == QueryEscape(a) + QueryEscape(b)
    decreases |a|
  {
    if |a| > 0 {
      assert (a + b)[0] == a[0] && (a + b)[1..] == a[1..] + b;
      QueryEscapeConcat(a[1..], b);
    } else {
      assert a + b == b;
    }
  }

  /** Unreserved text is left as it is. */
  lemma {:induction false} QueryEscapeUnreserved(s: GoString)
    requires forall k | 0 <= k < |s| :: IsUnreserved(s[k])
    ensures QueryEscape(s) == s
    decreases |s|
  {
    if |s| > 0 {
      QueryEscapeUnreserved(s[1..]);
      assert [s[0]] + s[1..] == s;
    }
  }
}

=== FILE: fnv.dfy ===
/** The 64-bit FNV-1a hash of Go's hash/fnv (New64a), as used by `hash` in
    utils.go: start from the offset basis, and for every byte xor it into the
    state and multiply by the FNV prime. `bv64` arithmetic wraps modulo 2^64,
    exactly like Go's uint64. */
module Fnv {
  import opened GoStrings

  const OffsetBasis: bv64 := 14695981039346656037
  const Prime: bv64 := 1099511628211

  /** One round: xor the byte in, then multiply (mod 2^64). */
  function Step(h: bv64, b: Byte): bv64 {
    (h ^ (b as int as bv64)) * Prime
  }

  /** The state after absorbing `s` from state `h`, first byte first. */
  function Absorb(h: bv64, s: GoString): bv64
    decreases |s|
  {
    if |s| == 0 then h else Absorb(Step(h, s[0]), s[1..])
  }

  /** FNV-1a of a whole string. */
  function Fnv1a(s: GoString): bv64 {
    Absorb(OffsetBasis, s)
  }

  /** Absorbing one more byte is one more round. */
  lemma {:induction false} AbsorbSnoc(h: bv64, s: GoString, b: Byte)
    ensures Absorb(h, s + [b]) == Step(Absorb(h, s), b)
    decreases |s|
  {
    if |s| == 0 {
      assert s + [b] == [b];
    } else {
      assert (s + [b])[1..] == s[1..] + [b];
      AbsorbSnoc(Step(h, s[0]), s[1..], b);
    }
  }

  /** The hash is incremental: appending a byte costs one round. */
  lemma HashIncremental(s: GoString, b: Byte)
    ensures Fnv1a(s + [b]) == Step(Fnv1a(s), b)
  {
    AbsorbSnoc(OffsetBasis, s, b);
  }

  /** The hash of the empty string is the offset basis, and the published
      test vector for "a" holds. */
  lemma KnownAnswers()
    ensures Fnv1a("") == 14695981039346656037
    ensures Fnv1a("a") == 0xaf63dc4c8601ec8c
  {
    assert ('a' as int as bv64) == 0x61;
    assert Step(OffsetBasis, 'a') == (OffsetBasis ^ 0x61) * Prime == 0xaf63dc4c8601ec8c;
    var a: GoString := "a";
    assert a[0] == 'a' && a[1..] == [];
  }

  /** Reading a hash as an unsigned number loses nothing. */
  lemma ToIntInjective(x: bv64, y: bv64)
    ensures x as int == y as int ==> x == y
  {
    var xi, yi := x as int, y as int;
    assert xi as bv64 == x;
    assert yi as bv64 == y;
  }

  /** `hash` of utils.go: the byte-by-byte loop that hash/fnv runs. */
  method Hash(s: GoString) returns (h: bv64)
    ensures h == Fnv1a(s)
    ensures |s| == 0 ==> h == OffsetBasis
  {
    h := OffsetBasis;
    var i := 0;
    while i < |s|
      invariant 0 <= i <= |s|
      invariant Absorb(h, s[i..]) == Fnv1a(s)
    {
      assert s[i..][1..] == s[i + 1..];
      h := Step(h, s[i]);
      i := i + 1;
    }
  }
}

=== FILE: gostrings.dfy ===
/** Go strings and the few functions of Go's `strings` package the relay uses.

    A Go string is an immutable sequence of bytes. It is modelled as a sequence
    of `char`s each below 256, so that a Dafny string literal made of ASCII
    characters is a Go string literal as well. */
module GoStrings {

  type Byte = c: char | c as int < 256 witness 'a'
  type GoString = seq<Byte>

  /** strings.HasPrefix */
  predicate HasPrefix(s: GoString, prefix: GoString) {
    |prefix| <= |s| && s[..|prefix|] == prefix
  }

  /** strings.HasSuffix */
  predicate HasSuffix(s: GoString, suffix: GoString) {
    |suffix| <= |s| && s[|s| - |suffix|..] == suffix
  }

  /** `sub` occurs in `s` starting at byte offset `i`. */
  predicate OccursAt(s: GoString, sub: GoString, i: int) {
    0 <= i && i + |sub| <= |s| && s[i..i + |sub|] == sub
  }

  /** The first offset at or after `from` where `sub` occurs, or -1. */
  function IndexFrom(s: GoString, sub: GoString, from: nat): (r: int)
    requires from <= |s|
    ensures r == -1 || (from <= r && OccursAt(s, sub, r))
    ensures r == -1 ==> forall k :: from <= k ==> !OccursAt(s, sub, k)
    ensures r != -1 ==> forall k :: from <= k < r ==> !OccursAt(s, sub, k)
    decreases |s| - from
  {
    if OccursAt(s, sub, from) then from
    else if from + |sub| >= |s| then -1
    else IndexFrom(s, sub, from + 1)
  }

  /** strings.Index: the first offset of `sub` in `s`, or -1. */
  function Index(s: GoString, sub: GoString): (r: int)
    ensures -1 <= r
    ensures r >= 0 ==> OccursAt(s, sub, r) && forall k :: 0 <= k < r ==> !OccursAt(s, sub, k)
    ensures r == -1 ==> forall k :: !OccursAt(s, sub, k)
  {
    IndexFrom(s, sub, 0)
  }

  /** strings.Contains */
  predicate Contains(s: GoString, sub: GoString) {
    Index(s, sub) >= 0
  }

  lemma ContainsIff(s: GoString, sub: GoString)
    ensures Contains(s, sub) <==> exists i :: OccursAt(s, sub, i)
  {
    if !Contains(s, sub) {
      assert forall k :: !OccursAt(s, sub, k);
    }
  }

  /** An occurrence of `sub` in `s` is an occurrence in any extension of `s`. */
  lemma ContainsExtended(pre: GoString, s: GoString, post: GoString, sub: GoString)
    requires Contains(s, sub)
    ensures Contains(pre + s + post, sub)
  {
    var i := Index(s, sub);
    var t := pre + s + post;
    assert t[|pre| + i..|pre| + i + |sub|] == s[i..i + |sub|];
    assert OccursAt(t, sub, |pre| + i);
  }

  /** strings.IndexByte: the first offset of byte `c`, or -1. */
  function IndexByte(s: GoString, c: Byte): (r: int)
    ensures -1 <= r < |s|
    ensures r >= 0 ==> s[r] == c && c !in s[..r]
    ensures r < 0 ==> c !in s
  {
    if |s| == 0 then -1
    else if s[0] == c then 0
    else
      var k := IndexByte(s[1..], c);
      assert s[1..][..if k < 0 then 0 else k] == s[1..if k < 0 then 1 else k + 1];
      if k < 0 then -1 else k + 1
  }

  /** strings.LastIndexByte (and strings.LastIndex with a one-byte needle). */
  function LastIndexByte(s: GoString, c: Byte): (r: int)
    ensures -1 <= r < |s|
    ensures r >= 0 ==> s[r] == c
    ensures forall k | r < k < |s| :: s[k] != c
  {
    if |s| == 0 then -1
    else if s[|s| - 1] == c then |s| - 1
    else LastIndexByte(s[..|s| - 1], c)
  }

  /** Nothing after the last occurrence is that byte. */
  lemma AfterLastByte(s: GoString, c: Byte)
    ensures c !in s[LastIndexByte(s, c) + 1..]
  {
    var i := LastIndexByte(s, c);
    var after := s[i + 1..];
    forall k | 0 <= k < |after| ensures after[k] != c {
      assert after[k] == s[i + 1 + k];
    }
  }

  /** A byte absent from a text is absent from its leading bytes. */
  lemma PrefixAvoids(s: GoString, n: nat, c: Byte)
    requires n <= |s| && c !in s
    ensures c !in s[..n]
  {
    forall k | 0 <= k < n ensures s[..n][k] != c {
      assert s[..n][k] == s[k];
    }
  }

  /** The last occurrence is the one with none after it. */
  lemma LastIndexByteAt(s: GoString, c: Byte, i: nat)
    requires i < |s| && s[i] == c
    requires forall k | i < k < |s| :: s[k] != c
    ensures LastIndexByte(s, c) == i
  {
  }

  /** strings.Cut: the text before and after the first `sep`, and whether it was found. */
  function Cut(s: GoString, sep: GoString): (r: (GoString, GoString, bool))
    ensures r.2 <==> Contains(s, sep)
    ensures r.2 ==> s == r.0 + sep + r.1 && forall k :: 0 <= k < |r.0| ==> !OccursAt(s, sep, k)
    ensures !r.2 ==> r.0 == s && r.1 == []
  {
    var i := Index(s, sep);
    if i >= 0 then
      assert s == s[..i] + sep + s[i + |sep|..];
      (s[..i], s[i + |sep|..], true)
    else (s, [], false)
  }

  /** Cutting at a one-byte separator leaves a head without that byte, made
      of the leading bytes of the input. */
  lemma CutHeadAvoids(s: GoString, c: Byte)
    ensures var h := Cut(s, [c]).0;
      |h| <= |s| && h == s[..|h|] && c !in h && !Contains(h, [c])
  {
    var h := Cut(s, [c]).0;
    if Contains(s, [c]) {
      assert s[..|h|] == h;
      forall k | 0 <= k < |h| ensures h[k] != c {
        assert !OccursAt(s, [c], k);
        assert s[k..k + 1] == [s[k]];
      }
    } else {
      forall k | 0 <= k < |h| ensures h[k] != c {
        assert !OccursAt(s, [c], k);
        assert s[k..k + 1] == [s[k]];
      }
    }
    assert !OccursAt(h, [c], Index(h, [c]));
  }

  /** strings.Join with a one-byte separator. */
  function Join(parts: seq<GoString>, sep: Byte): GoString {
    if |parts| == 0 then []
    else if |parts| == 1 then parts[0]
    else parts[0] + [sep] + Join(parts[1..], sep)
  }

  /** Joining a piece in front of at least one more. */
  lemma JoinCons(p: GoString, rest: seq<GoString>, sep: Byte)
    requires |rest| >= 1
    ensures Join([p] + rest, sep) == p + [sep] + Join(rest, sep)
  {
    assert ([p] + rest)[1..] == rest;
  }

  /** strings.Split with a one-byte separator: n separators give n + 1 pieces,
      none containing the separator, and joining them back gives `s`. */
  function Split(s: GoString, sep: Byte): (r: seq<GoString>)
    ensures |r| >= 1
    ensures forall i | 0 <= i < |r| :: sep !in r[i]
    ensures Join(r, sep) == s
    decreases |s|
  {
    var i := IndexByte(s, sep);
    if i < 0 then [s]
    else
      var rest := Split(s[i + 1..], sep);
      var r := [s[..i]] + rest;
      assert forall k | 0 <= k < |r| :: sep !in r[k] by {
        forall k | 0 <= k < |r|
          ensures sep !in r[k]
        {
          if k > 0 {
            assert r[k] == rest[k - 1];
          }
        }
      }
      JoinCons(s[..i], rest, sep);
      assert s == s[..i] + [sep] + s[i + 1..];
      r
  }

  /** Splitting undoes joining when no piece contains the separator. */
  lemma {:induction false} SplitJoin(parts: seq<GoString>, sep: Byte)
    requires |parts| >= 1
    requires forall i | 0 <= i < |parts| :: sep !in parts[i]
    ensures Split(Join(parts, sep), sep) == parts
    decreases |parts|
  {
    if |parts| > 1 {
      var s := Join(parts, sep);
      var tail := Join(parts[1..], sep);
      assert s == parts[0] + [sep] + tail;
      assert s[|parts[0]|] == sep;
      assert s[..|parts[0]|] == parts[0];
      assert IndexByte(s, sep) == |parts[0]|;
      assert s[|parts[0]| + 1..] == tail;
      SplitJoin(parts[1..], sep);
      assert [parts[0]] + parts[1..] == parts;
    }
  }

  /** The number of occurrences of byte `c`. */
  function CountByte(s: GoString, c: Byte): nat {
    if |s| == 0 then 0 else (if s[0] == c then 1 else 0) + CountByte(s[1..], c)
  }

  /** strings.Split gives one more piece than there are separators. */
  lemma {:induction false} SplitCount(s: GoString, sep: Byte)
    ensures |Split(s, sep)| == CountByte(s, sep) + 1
    decreases |s|
  {
    var i := IndexByte(s, sep);
    if i < 0 {
      CountAbsent(s, sep);
    } else {
      SplitCount(s[i + 1..], sep);
      CountAbsent(s[..i], sep);
      CountConcat(s[..i], s[i..], sep);
      assert s[..i] + s[i..] == s;
      assert s[i..][1..] == s[i + 1..];
    }
  }

  lemma {:induction false} CountAbsent(s: GoString, c: Byte)
    requires c !in s
    ensures CountByte(s, c) == 0
    decreases |s|
  {
    if |s| > 0 {
      assert s[0] != c;
      assert forall k | 0 <= k < |s[1..]| :: s[1..][k] == s[k + 1];
      CountAbsent(s[1..], c);
    }
  }

  lemma {:induction false} CountConcat(a: GoString, b: GoString, c: Byte)
    ensures CountByte(a + b, c) == CountByte(a, c) + CountByte(b, c)
    decreases |a|
  {
    if |a| > 0 {
      assert (a + b)[1..] == a[1..] + b;
      CountConcat(a[1..], b, c);
    } else {
      assert a + b == b;
    }
  }

  /** strings.TrimLeft with a one-byte cutset: drops every leading `c`. */
  function TrimLeftByte(s: GoString, c: Byte): (r: GoString)
    ensures |r| <= |s| && s[|s| - |r|..] == r
    ensures forall k | 0 <= k < |s| - |r| :: s[k] == c
    ensures |r| == 0 || r[0] != c
  {
    if |s| > 0 && s[0] == c then
      var r := TrimLeftByte(s[1..], c);
      assert s[1..][|s| - 1 - |r|..] == s[|s| - |r|..];
      r
    else s
  }

  /** Trimming is idempotent: an already trimmed string is left as it is. */
  lemma TrimLeftIdempotent(s: GoString, c: Byte)
    ensures TrimLeftByte(TrimLeftByte(s, c), c) == TrimLeftByte(s, c)
  {
  }

  /** strings.ToUpper restricted to what it does on ASCII text: maps a-z to A-Z. */
  function AsciiToUpper(s: GoString): (r: GoString)
    ensures |r| == |s|
  {
    seq(|s|, i requires 0 <= i < |s| => UpperByte(s[i]))
  }

  function UpperByte(c: Byte): Byte {
    if 'a' <= c <= 'z' then (c as int - 32) as char else c
  }
}

=== FILE: hex.dfy ===
/** Hexadecimal digits and the hex text encoding of byte strings
    (the base16 alphabet of section 8 of RFC 4648). */
module Hex {
  import opened GoStrings

  /** A byte value, as produced by a hash or MAC. */
  type Octet = n: int | 0 <= n < 256

  /** The digit for `n` in Go's lower-case table "0123456789abcdef". */
  function LowerDigit(n: int): (c: Byte)
    requires 0 <= n < 16
    ensures IsHexDigit(c) && Unhex(c) == n
    ensures !('A' <= c <= 'Z')
  {
    if n < 10 then ('0' as int + n) as char else ('a' as int + n - 10) as char
  }

  /** The digit for `n` in Go's upper-case table "0123456789ABCDEF". */
  function UpperDigit(n: int): (c: Byte)
    requires 0 <= n < 16
    ensures IsUpperHexDigit(c) && Unhex(c) == n
  {
    if n < 10 then ('0' as int + n) as char else ('A' as int + n - 10) as char
  }

  predicate IsHexDigit(c: Byte) {
    '0' <= c <= '9' || 'a' <= c <= 'f' || 'A' <= c <= 'F'
  }

  predicate IsUpperHexDigit(c: Byte) {
    '0' <= c <= '9' || 'A' <= c <= 'F'
  }

  /** The value of a hex digit of either case, as net/url's unhex computes it. */
  function Unhex(c: Byte): (v: int)
    requires IsHexDigit(c)
    ensures 0 <= v < 16
  {
    if '0' <= c <= '9' then c as int - '0' as int
    else if 'a' <= c <= 'f' then c as int - 'a' as int + 10
    else c as int - 'A' as int + 10
  }

  /** hex.EncodeToString: two lower-case digits per byte, high nibble first,
      so each byte is read back from its pair of digits. */
  function EncodeToString(bytes: seq<Octet>): (r: GoString)
    ensures |r| == 2 * |bytes|
    ensures forall i | 0 <= i < |bytes| ::
      r[2 * i] == LowerDigit(bytes[i] / 16) && r[2 * i + 1] == LowerDigit(bytes[i] % 16)
  {
    if |bytes| == 0 then []
    else
      var tail := EncodeToString(bytes[1..]);
      var r := [LowerDigit(bytes[0] / 16), LowerDigit(bytes[0] % 16)] + tail;
      assert forall i | 0 <= i < |bytes| ::
        r[2 * i] == LowerDigit(bytes[i] / 16) && r[2 * i + 1] == LowerDigit(bytes[i] % 16)
      by {
        forall i | 1 <= i < |bytes|
          ensures r[2 * i] == LowerDigit(bytes[i] / 16) && r[2 * i + 1] == LowerDigit(bytes[i] % 16)
        {
          var k := i - 1;
          assert bytes[i] == bytes[1..][k];
          assert r[2 * i] == tail[2 * k] && r[2 * i + 1] == tail[2 * k + 1];
        }
      }
      r
  }

  /** The upper-case hex encoding, digit by digit: the reference the signature is compared with. */
  ghost function UpperHex(bytes: seq<Octet>): (r: GoString)
  {
    seq(2 * |bytes|, i requires 0 <= i < 2 * |bytes| =>
      if i % 2 == 0 then UpperDigit(bytes[i / 2] / 16) else UpperDigit(bytes[i / 2] % 16))
  }

  /** Upper-casing the lower-case encoding yields the upper-case encoding. */
  lemma UpperOfEncoding(bytes: seq<Octet>)
    ensures AsciiToUpper(EncodeToString(bytes)) == UpperHex(bytes)
  {
    var e := EncodeToString(bytes);
    var u := AsciiToUpper(e);
    var h := UpperHex(bytes);
    forall i | 0 <= i < |h|
      ensures u[i] == h[i]
    {
      var b := i / 2;
      assert u[i] == UpperByte(e[i]);
      if i % 2 == 0 {
        var n := bytes[b] / 16;
        assert i == 2 * b && e[i] == LowerDigit(n) && h[i] == UpperDigit(n);
        UpperOfLowerDigit(n);
      } else {
        var n := bytes[b] % 16;
        assert i == 2 * b + 1 && e[i] == LowerDigit(n) && h[i] == UpperDigit(n);
        UpperOfLowerDigit(n);
      }
    }
  }

  lemma UpperOfLowerDigit(n: int)
    requires 0 <= n < 16
    ensures UpperByte(LowerDigit(n)) == UpperDigit(n)
  {
  }
}

=== FILE: pic.dfy ===
/** The image relay of pic.go: canonicalising the client's image reference,
    the host allow-list that keeps the relay on the CDN, and the handler's
    decisions (original-size flag, ETag short-circuit, status gate, header
    allow-list). */
module Pic {
  import opened Wrappers
  import opened GoStrings
  import opened GoErrors
  import opened Escape
  import opened Urls
  import opened Relay

  /** picProxyHeaders */
  const PicHeaders: seq<GoString> := ["Content-Type", "Content-Length", "Cache-Control", "Last-Modified", "Expires"]

  const CdnDomain: GoString := "twimg.com"
  const CdnMarker: GoString := "twimg.com/"
  const DefaultCdnPrefix: GoString := "https://pbs.twimg.com/"

  /** The allow-list: the CDN domain itself or any of its subdomains. */
  predicate IsAllowedHost(host: GoString)
    ensures IsAllowedHost(host) <==> EndsAtLabel(host, CdnDomain)
  {
    if |host| > |CdnDomain| then
      assert HasSuffix(host, ".twimg.com") <==> host[|host| - 10..] == "." + CdnDomain;
      assert host[|host| - 10..] == [host[|host| - 10]] + host[|host| - 9..];
      host == CdnDomain || HasSuffix(host, ".twimg.com")
    else
      host == CdnDomain || HasSuffix(host, ".twimg.com")
  }

  /** `host` ends in `domain` at a label boundary: it is `domain` itself or
      the byte before that suffix is a dot. */
  predicate EndsAtLabel(host: GoString, domain: GoString) {
    HasSuffix(host, domain) && (|host| == |domain| || host[|host| - |domain| - 1] == '.')
  }

  /** The three accepted shapes, tried in order: an https URL is kept, text
      naming the CDN domain gets the scheme, anything else is a path on the
      default image host. Every shape ends up starting with "https://". */
  function RawImageUrl(path: GoString): (raw: GoString)
    ensures HasPrefix(raw, HttpsPrefix)
    ensures HasPrefix(path, HttpsPrefix) ==> raw == path
    ensures !HasPrefix(path, HttpsPrefix) && Contains(path, CdnMarker) ==> raw == HttpsPrefix + path
    ensures !HasPrefix(path, HttpsPrefix) && !Contains(path, CdnMarker) ==> raw == DefaultCdnPrefix + path
  {
    if HasPrefix(path, HttpsPrefix) then path
    else if Contains(path, CdnMarker) then
      assert (HttpsPrefix + path)[..8] == HttpsPrefix;
      HttpsPrefix + path
    else
      assert (DefaultCdnPrefix + path)[..8] == HttpsPrefix;
      DefaultCdnPrefix + path
  }

  /** The URL picBuildURL would print for a parsed reference. */
  function Canonical(lib: UrlLib, u: Url, orig: bool): GoString {
    lib.format(if orig then WithQuery(u, OrigQuery) else u)
  }

  /** picBuildURL. The result is ("", false) unless the reference parses and
      its host is on the allow-list; then it is the printed URL, with the
      query replaced by "name=orig" when `orig` is set. */
  function PicBuildURL(lib: UrlLib, path: GoString, orig: bool): (r: (GoString, bool))
    ensures !r.1 ==> r.0 == []
    ensures r.1 <==> lib.parse(RawImageUrl(path)).Some? && IsAllowedHost(Hostname(lib, lib.parse(RawImageUrl(path)).value))
    ensures r.1 ==> r.0 == Canonical(lib, lib.parse(RawImageUrl(path)).value, orig)
  {
    match lib.parse(RawImageUrl(path))
    case None => ([], false)
    case Some(parsed) =>
      if !IsAllowedHost(Hostname(lib, parsed)) then ([], false)
      else
        var u := if orig then WithQuery(parsed, OrigQuery) else parsed;
        (lib.format(u), true)
  }

  /** Hosts that merely look like the CDN are refused. */
  lemma LookalikeHostsRefused()
    ensures IsAllowedHost("twimg.com") && IsAllowedHost("pbs.twimg.com") && IsAllowedHost("video.twimg.com")
    ensures !IsAllowedHost("eviltwimg.com")
    ensures !IsAllowedHost("twimg.com.evil.com")
    ensures !IsAllowedHost("evil.com")
    ensures !IsAllowedHost("")
  {
    assert "pbs.twimg.com"[3..] == ".twimg.com";
    assert "video.twimg.com"[5..] == ".twimg.com";
    assert "eviltwimg.com"[3..] != ".twimg.com" by { assert "eviltwimg.com"[3..][0] == 'l'; }
    assert "twimg.com.evil.com"[8..] != ".twimg.com" by { assert "twimg.com.evil.com"[8..][0] == 'm'; }
  }

  /** A reference such as "evil.com/twimg.com/x" names the CDN only in its
      path, yet it takes the second shape: the host is whatever precedes
      the first '/'. */
  lemma CdnInPathTakesSecondShape(host: GoString, rest: GoString)
    requires !HasPrefix(host + "/" + rest, HttpsPrefix)
    requires HasPrefix(rest, CdnMarker)
    ensures RawImageUrl(host + "/" + rest) == HttpsUrlText(host, rest)
  {
    var path := host + "/" + rest;
    assert OccursAt(rest, CdnMarker, 0);
    ContainsExtended(host + "/", rest, [], CdnMarker);
    assert host + "/" + rest + [] == path;
  }

  /** ... so when that host is a plain name off the allow-list, the
      reference is refused, whatever its path says. */
  lemma PathMentioningCdnRefused(lib: UrlLib, host: GoString, rest: GoString, orig: bool)
    requires Lawful(lib)
    requires IsDnsName(host) && !IsAllowedHost(host)
    requires !HasPrefix(host + "/" + rest, HttpsPrefix)
    requires HasPrefix(rest, CdnMarker)
    ensures PicBuildURL(lib, host + "/" + rest, orig) == ([], false)
  {
    CdnInPathTakesSecondShape(host, rest);
  }

  /** A bare path always stays on the default image host. */
  lemma BarePathStaysOnCdn(lib: UrlLib, path: GoString, orig: bool)
    requires Lawful(lib)
    requires !HasPrefix(path, HttpsPrefix) && !Contains(path, CdnMarker)
    requires lib.parse(RawImageUrl(path)).Some?
    ensures PicBuildURL(lib, path, orig).1
  {
    BareRawIsOnDefaultHost(path);
    DefaultHostAllowed();
  }

  lemma BareRawIsOnDefaultHost(path: GoString)
    requires !HasPrefix(path, HttpsPrefix) && !Contains(path, CdnMarker)
    ensures RawImageUrl(path) == HttpsUrlText("pbs.twimg.com", path)
  {
  }

  lemma DefaultHostAllowed()
    ensures IsDnsName("pbs.twimg.com") && IsAllowedHost("pbs.twimg.com")
  {
    assert "pbs.twimg.com"[3..] == ".twimg.com";
  }

  /** Canonicalisation is idempotent: an accepted result is itself accepted
      (through the first shape) and comes back unchanged, under the same
      flag or without it. */
  lemma PicBuildURLIdempotent(lib: UrlLib, path: GoString, orig: bool, orig2: bool)
    requires Lawful(lib)
    requires PicBuildURL(lib, path, orig).1
    requires orig2 ==> orig
    ensures RawImageUrl(PicBuildURL(lib, path, orig).0) == PicBuildURL(lib, path, orig).0
    ensures PicBuildURL(lib, PicBuildURL(lib, path, orig).0, orig2) == PicBuildURL(lib, path, orig)
  {
    var raw := RawImageUrl(path);
    var parsed := lib.parse(raw).value;
    var u := if orig then WithQuery(parsed, OrigQuery) else parsed;
    var out := lib.format(u);
    assert parsed.scheme == "https";
    assert Hostname(lib, u) == Hostname(lib, parsed);
    assert HasPrefix(out, HttpsPrefix);
    assert RawImageUrl(out) == out;
    assert lib.parse(out) == Some(u);
    assert (if orig2 then WithQuery(u, OrigQuery) else u) == u;
  }

  /** The part of picProxyHandler after the upstream call: a transport
      failure is a 502, any status but 200 is passed on as an error, and a
      200 is relayed with the allow-listed headers and the ETag. */
  function PicRelay(picURL: GoString, up: Upstream, copyErr: Option<Error>): (o: Outcome)
    ensures o.fetched == [picURL]
    ensures up.Unreachable? ==> o == Fail(StatusBadGateway, "Proxy Error", [picURL])
    ensures up.Reply? && up.status != StatusOK ==> o == Fail(up.status, "Upstream Error", [picURL])
    ensures up.Reply? && up.status == StatusOK ==>
      && o == StreamReply(PicHeaders, Etag(picURL), StatusOK, up.header, up.body, copyErr, [picURL])
      && o.payload == Stream(up.body)
      && (forall k :: k in o.header <==> k == EtagKey || (k in PicHeaders && HeaderGet(up.header, k) != ""))
      && (forall k | k in o.header && k != EtagKey :: o.header[k] == [HeaderGet(up.header, k)])
      && (o.writeErrorLogged <==> copyErr.Some? && !IsClientDisconnect(copyErr.value))
    ensures o.payload.Stream? ==> o.status == StatusOK && EtagKey in o.header && o.header[EtagKey] == [Etag(picURL)]
    ensures o.payload.Stream? ==> forall k | k in o.header :: k == EtagKey || k in PicHeaders
  {
    match up
    case Unreachable(_) => Fail(StatusBadGateway, "Proxy Error", [picURL])
    case Reply(status, header, body, _, _) =>
      if status != StatusOK then Fail(status, "Upstream Error", [picURL])
      else StreamReply(PicHeaders, Etag(picURL), status, header, body, copyErr, [picURL])
  }

  /** The part of picProxyHandler after canonicalisation: answer 304 without
      any upstream call when If-None-Match equals the ETag, otherwise fetch the
      URL once, without request headers, and relay the reply. */
  function PicServe(picURL: GoString, req: Header, fetch: Fetcher, copyErr: Option<Error>): (o: Outcome)
    ensures EtagMatches(req, picURL) ==> o == Outcome(StatusNotModified, map[], NoBody, [], false)
    ensures !EtagMatches(req, picURL) ==> o == PicRelay(picURL, fetch(picURL, map[]), copyErr)
    ensures o.fetched == [] <==> EtagMatches(req, picURL)
    ensures o.fetched == [] || o.fetched == [picURL]
    ensures o.payload.Stream? ==> o.status == StatusOK && EtagKey in o.header && o.header[EtagKey] == [Etag(picURL)]
    ensures o.payload.Stream? ==> forall k | k in o.header :: k == EtagKey || k in PicHeaders
  {
    if HeaderGet(req, IfNoneMatchKey) == Etag(picURL) then Outcome(StatusNotModified, map[], NoBody, [], false)
    else PicRelay(picURL, fetch(picURL, map[]), copyErr)
  }

  /** picProxyHandler: decode the reference and canonicalise it (a request
      path containing "orig/" asks for the original size); a reference that
      does not decode, parse, or name an allowed host is a 400 before any
      upstream call. */
  function PicHandler(lib: UrlLib, requestPath: GoString, urlValue: GoString, req: Header,
                      fetch: Fetcher, copyErr: Option<Error>): (o: Outcome)
    ensures PathUnescape(urlValue).None? ==> o == Fail(StatusBadRequest, "Invalid URL", [])
    ensures PathUnescape(urlValue).Some? && !PicBuildURL(lib, PathUnescape(urlValue).value, Contains(requestPath, "orig/")).1 ==>
      o == Fail(StatusBadRequest, "Invalid Host", [])
    ensures o.fetched != [] ==>
      PathUnescape(urlValue).Some? &&
      PicBuildURL(lib, PathUnescape(urlValue).value, Contains(requestPath, "orig/")) == (o.fetched[0], true)
    ensures PathUnescape(urlValue).Some? && PicBuildURL(lib, PathUnescape(urlValue).value, Contains(requestPath, "orig/")).1 ==>
      o == PicServe(PicBuildURL(lib, PathUnescape(urlValue).value, Contains(requestPath, "orig/")).0, req, fetch, copyErr)
  {
    match PathUnescape(urlValue)
    case None => Fail(StatusBadRequest, "Invalid URL", [])
    case Some(path) =>
      var built := PicBuildURL(lib, path, Contains(requestPath, "orig/"));
      if !built.1 then Fail(StatusBadRequest, "Invalid Host", [])
      else PicServe(built.0, req, fetch, copyErr)
  }

  /** The SSRF guard end to end: whatever the client sends, the image relay
      only ever fetches a URL whose host is the CDN domain or a subdomain. */
  lemma PicFetchesOnlyAllowedHosts(lib: UrlLib, requestPath: GoString, urlValue: GoString, req: Header,
                                   fetch: Fetcher, copyErr: Option<Error>)
    requires Lawful(lib)
    ensures var o := PicHandler(lib, requestPath, urlValue, req, fetch, copyErr);
      o.fetched != [] ==> lib.parse(o.fetched[0]).Some? && IsAllowedHost(Hostname(lib, lib.parse(o.fetched[0]).value))
  {
    var o := PicHandler(lib, requestPath, urlValue, req, fetch, copyErr);
    if o.fetched != [] {
      AcceptedUrlAllowed(lib, PathUnescape(urlValue).value, Contains(requestPath, "orig/"));
    }
  }

  /** An accepted canonical URL parses again to a URL on an allowed host. */
  lemma AcceptedUrlAllowed(lib: UrlLib, path: GoString, orig: bool)
    requires Lawful(lib) && PicBuildURL(lib, path, orig).1
    ensures var u := PicBuildURL(lib, path, orig).0;
      lib.parse(u).Some? && IsAllowedHost(Hostname(lib, lib.parse(u).value))
  {
    var u := PicBuildURL(lib, path, orig).0;
    PicBuildURLIdempotent(lib, path, orig, orig);
    assert RawImageUrl(u) == u;
    assert PicBuildURL(lib, u, orig).1;
  }
}

=== FILE: playlist.dfy ===
/** Playlist rewriting of video.go: every reference an HLS playlist makes is
    turned into a signed relay URL, so that later requests for segments and
    sub-playlists come back through the relay.

    A playlist is split on line feeds and each line is one of three kinds:
    a line holding `URI=` has each `URI="<value>"` replaced, a line starting
    with `/` is replaced as a whole, and any other line is kept. */
module Playlist {
  import opened Wrappers
  import opened GoStrings
  import opened Escape
  import opened Signing
  import opened Hex

  const VideoHost: GoString := "https://video.twimg.com"
  const RelayPrefix: GoString := "/video/"
  const Newline: Byte := '\n'
  const Quote: Byte := '"'
  const UriOpen: GoString := "URI=\""
  const UriMarker: GoString := "URI="
  const MapDirective: GoString := "#EXT-X-MAP:URI="

  /** The absolute URL a playlist reference stands for: references that do
      not start with "http" are paths on the video host. */
  function FullVideoUrl(path: GoString): (full: GoString)
    ensures HasPrefix(full, "http") && HasSuffix(full, path)
    ensures full == path <==> HasPrefix(path, "http")
    ensures full != path ==> |full| == |VideoHost| + |path| && HasPrefix(full, VideoHost)
  {
    if HasPrefix(path, "http") then path else VideoHost + path
  }

  /** The relay path for a signature and an escaped URL. */
  function RelayPath(sig: GoString, esc: GoString): GoString {
    RelayPrefix + sig + "/" + esc
  }

  lemma RelayPathParts(sig: GoString, esc: GoString)
    requires |sig| == SignatureLength
    ensures var r := RelayPath(sig, esc);
      |r| == 21 + |esc| && r[..7] == RelayPrefix && r[7..20] == sig && r[20] == '/' && r[21..] == esc
  {
  }

  /** A byte absent from every part is absent from the relay path. */
  lemma RelayPathAvoids(sig: GoString, esc: GoString, c: Byte)
    requires |sig| == SignatureLength
    requires c !in RelayPrefix && c != '/' && c !in sig && c !in esc
    ensures c !in RelayPath(sig, esc)
  {
    var r := RelayPath(sig, esc);
    RelayPathParts(sig, esc);
    forall k | 0 <= k < |r| ensures r[k] != c {
      if k < 7 { assert r[k] == RelayPrefix[k]; }
      else if k < 20 { assert r[k] == r[7..20][k - 7]; }
      else if k > 20 { assert r[k] == r[21..][k - 21]; }
    }
  }

  /** makeVideoProxyURL: "/video/" + signature + "/" + query-escaped URL.
      Read back, the relay URL yields a signature that verifies against the
      full URL and an escaped part that decodes to exactly the full URL; the
      relay URL holds no line feed or quote, and is longer than the reference. */
  function MakeVideoProxyURL(signer: Signer, path: GoString): (r: GoString)
    ensures |r| >= |path| + 21
    ensures r[..7] == RelayPrefix && r[20] == '/'
    ensures Verify(signer, FullVideoUrl(path), r[7..20])
    ensures r[21..] == QueryEscape(FullVideoUrl(path))
    ensures QueryUnescape(r[21..]) == Some(FullVideoUrl(path))
    ensures Newline !in r && Quote !in r
  {
    var full := FullVideoUrl(path);
    var sig := CreateHMAC(signer, full);
    var esc := QueryEscape(full);
    RelayPathParts(sig, esc);
    QueryRoundTrip(full);
    assert !IsEscapedByte(Newline) && !IsEscapedByte(Quote);
    assert Newline !in sig && Quote !in sig by {
      assert forall k | 0 <= k < |sig| :: IsUpperHexDigit(sig[k]);
    }
    RelayPathAvoids(sig, esc, Newline);
    RelayPathAvoids(sig, esc, Quote);
    RelayPath(sig, esc)
  }

  /** The regular expression URI="([^"]+)" matched at the start of `s`: the
      quoted value when it is non-empty and closed by a quote. */
  function UriMatch(s: GoString): Option<GoString> {
    if HasPrefix(s, UriOpen) then
      var q := IndexByte(s[5..], Quote);
      if q > 0 then Some(s[5..5 + q]) else None
    else None
  }

  /** A match is a non-empty quote-free value, and the matched text is
      exactly `URI="` + value + `"`. */
  lemma UriMatchSound(s: GoString)
    ensures UriMatch(s).Some? ==> |UriMatch(s).value| > 0 && Quote !in UriMatch(s).value
    ensures UriMatch(s).Some? ==>
      |s| >= |UriMatch(s).value| + 6 && s[..|UriMatch(s).value| + 6] == UriOpen + UriMatch(s).value + "\""
  {
    if UriMatch(s).Some? {
      var q := IndexByte(s[5..], Quote);
      var v := s[5..5 + q];
      assert s[5..][..q] == v;
      assert UriMatch(s).value == v && |v| == q && Quote !in v;
      assert s[5 + q] == Quote;
      assert s[..q + 6] == s[..5] + v + [s[5 + q]];
    }
  }

  /** A value that cannot be extended: the regular expression matches
      `URI="v"` exactly when v is non-empty and quote-free. */
  lemma UriMatchExact(v: GoString, rest: GoString)
    requires |v| > 0 && Quote !in v
    ensures UriMatch(UriOpen + v + "\"" + rest) == Some(v)
  {
    var s := UriOpen + v + "\"" + rest;
    var t := s[5..];
    assert s[..5] == UriOpen;
    assert t == v + "\"" + rest;
    assert t[|v|] == Quote;
    var q := IndexByte(t, Quote);
    assert t[..|v|] == v;
    assert q == |v|;
    assert s[5..5 + q] == v;
  }

  /** The function handed to ReplaceAllStringFunc: it matches the regular
      expression again on the matched text and rebuilds the attribute around
      the relay URL, or keeps the text when there is no submatch. */
  function ReplaceMatch(signer: Signer, m: GoString): GoString {
    match UriMatch(m)
    case None => m
    case Some(v) => Replacement(signer, v)
  }

  /** The attribute rebuilt around the relay URL of a value. */
  function Replacement(signer: Signer, v: GoString): GoString {
    UriOpen + MakeVideoProxyURL(signer, v) + "\""
  }

  /** The fallback of the callback is dead: a match always has its submatch. */
  lemma ReplaceMatchOfMatch(signer: Signer, s: GoString)
    requires UriMatch(s).Some?
    ensures ReplaceMatch(signer, s[..|UriMatch(s).value| + 6]) == Replacement(signer, UriMatch(s).value)
  {
    var v := UriMatch(s).value;
    UriMatchSound(s);
    UriMatchExact(v, []);
    assert UriOpen + v + "\"" + [] == s[..|v| + 6];
  }

  /** No match of URI="([^"]+)" starts anywhere in `s`. */
  predicate NoUriMatch(s: GoString) {
    forall i | 0 <= i < |s| :: UriMatch(s[i..]).None?
  }

  /** Where the leftmost match starts, searching from `from` on; -1 if none. */
  function UriMatchIndex(s: GoString, from: nat): (i: int)
    requires from <= |s|
    ensures i == -1 || (from <= i < |s| && UriMatch(s[i..]).Some?)
    ensures forall j | from <= j < |s| && (i == -1 || j < i) :: UriMatch(s[j..]).None?
    decreases |s| - from
  {
    if from == |s| then -1
    else if UriMatch(s[from..]).Some? then from
    else UriMatchIndex(s, from + 1)
  }

  /** The leftmost match is the first position with a match. */
  lemma UriMatchIndexAt(s: GoString, i: nat)
    requires i < |s| && UriMatch(s[i..]).Some?
    requires forall j | 0 <= j < i :: UriMatch(s[j..]).None?
    ensures UriMatchIndex(s, 0) == i
  {
    var r := UriMatchIndex(s, 0);
    assert r != -1 && r <= i;
  }

  /** Neither the copied text, the replacement nor the rest holds a line
      feed when the input has none. */
  lemma RewritePartsNoNewline(signer: Signer, s: GoString, i: nat, n: nat, v: GoString)
    requires i + n <= |s|
    ensures Newline !in s ==> Newline !in s[..i] && Newline !in s[i + n..]
    ensures Newline !in Replacement(signer, v)
    ensures |Replacement(signer, v)| >= |v| + 6
  {
    var rest := s[i + n..];
    assert forall k | 0 <= k < i :: s[..i][k] == s[k];
    assert forall k | 0 <= k < |rest| :: rest[k] == s[i + n + k];
    assert Newline !in UriOpen;
  }

  /** Putting `m` in place of `n` bytes at `i` and `tail` in place of what
      follows keeps the text at least as long, and free of line feeds, when
      the parts are. */
  lemma SpliceFacts(s: GoString, i: nat, n: nat, m: GoString, tail: GoString)
    requires i + n <= |s| && |m| >= n && |tail| >= |s| - i - n
    requires Newline !in s ==> Newline !in s[..i] && Newline !in m && Newline !in tail
    ensures |s[..i] + m + tail| >= |s|
    ensures Newline !in s ==> Newline !in s[..i] + m + tail
  {
  }

  /** rewriteExtXMapURI: ReplaceAllStringFunc copies the text before the
      leftmost match, replaces the match (the callback matches again to get
      its submatch, which always succeeds), and carries on after it. The
      result never gets shorter and gains no line feed. */
  function RewriteExtXMapURI(signer: Signer, s: GoString): (r: GoString)
    ensures |r| >= |s|
    ensures Newline !in s ==> Newline !in r
    decreases |s|, 1
  {
    RewriteFrom(signer, s, UriMatchIndex(s, 0))
  }

  /** The rewriting once the leftmost match `i` is known (-1: none). */
  function RewriteFrom(signer: Signer, s: GoString, i: int): (r: GoString)
    requires i == -1 || (0 <= i < |s| && UriMatch(s[i..]).Some?)
    ensures |r| >= |s|
    ensures Newline !in s ==> Newline !in r
    decreases |s|, 0
  {
    if i < 0 then s
    else
      MatchReplaced(signer, s, i);
      var n := |UriMatch(s[i..]).value| + 6;
      var m := ReplaceMatch(signer, s[i..][..n]);
      var tail := RewriteExtXMapURI(signer, s[i + n..]);
      SpliceFacts(s, i, n, m, tail);
      s[..i] + m + tail
  }

  /** The leftmost match at `i` fits in the text, and its replacement is no
      shorter and, like the text around it, free of line feeds. */
  lemma MatchReplaced(signer: Signer, s: GoString, i: nat)
    requires i < |s| && UriMatch(s[i..]).Some?
    ensures var n := |UriMatch(s[i..]).value| + 6;
      && i + n <= |s|
      && |ReplaceMatch(signer, s[i..][..n])| >= n
      && (Newline !in s ==>
            Newline !in s[..i] && Newline !in ReplaceMatch(signer, s[i..][..n]) && Newline !in s[i + n..])
  {
    var v := UriMatch(s[i..]).value;
    UriMatchSound(s[i..]);
    ReplaceMatchOfMatch(signer, s[i..]);
    RewritePartsNoNewline(signer, s, i, |v| + 6, v);
  }

  /** The text before the leftmost match is copied, the match is replaced,
      and scanning resumes right after it. */
  lemma RewriteAtFirstMatch(signer: Signer, s: GoString, i: nat)
    requires i < |s| && UriMatch(s[i..]).Some?
    requires forall j | 0 <= j < i :: UriMatch(s[j..]).None?
    ensures var v := UriMatch(s[i..]).value;
      i + |v| + 6 <= |s| &&
      RewriteExtXMapURI(signer, s) ==
        s[..i] + Replacement(signer, v) + RewriteExtXMapURI(signer, s[i + |v| + 6..])
  {
    UriMatchIndexAt(s, i);
    UriMatchSound(s[i..]);
    ReplaceMatchOfMatch(signer, s[i..]);
  }

  /** Text is left unchanged exactly when no match starts anywhere in it;
      otherwise it grows. */
  lemma RewriteUnchangedIff(signer: Signer, s: GoString)
    ensures RewriteExtXMapURI(signer, s) == s <==> NoUriMatch(s)
    ensures !NoUriMatch(s) ==> |RewriteExtXMapURI(signer, s)| > |s|
  {
    var i := UriMatchIndex(s, 0);
    if i >= 0 {
      RewriteAtFirstMatch(signer, s, i);
      var v := UriMatch(s[i..]).value;
      assert |Replacement(signer, v)| > |v| + 6;
    }
  }

  datatype LineKind = UriDirective | RelativeReference | Opaque

  /** The line test of rewriteM3U8, in its order. */
  function Classify(line: GoString): LineKind {
    if HasPrefix(line, MapDirective) || Contains(line, UriMarker) then UriDirective
    else if HasPrefix(line, "/") then RelativeReference
    else Opaque
  }

  /** The "#EXT-X-MAP:URI=" prefix test adds nothing: such a line contains
      "URI=" anyway. So a line is a URI directive exactly when it contains
      "URI=", even if it also starts with '/'. */
  lemma UriDirectiveIff(line: GoString)
    ensures Classify(line) == UriDirective <==> Contains(line, UriMarker)
  {
    if HasPrefix(line, MapDirective) {
      assert line[11..15] == MapDirective[11..15] == UriMarker;
      assert OccursAt(line, UriMarker, 11);
    }
  }

  /** The rewriting of one line. */
  function RewriteLine(signer: Signer, line: GoString): GoString {
    match Classify(line)
    case UriDirective => RewriteExtXMapURI(signer, line)
    case RelativeReference => MakeVideoProxyURL(signer, line)
    case Opaque => line
  }

  /** Per line: an opaque line is kept byte for byte, a URI directive without
      a quoted value is kept too, and no rewritten line gains a line feed. */
  lemma RewriteLineFacts(signer: Signer, line: GoString)
    ensures Classify(line) == Opaque ==> RewriteLine(signer, line) == line
    ensures Classify(line) == UriDirective ==> (RewriteLine(signer, line) == line <==> NoUriMatch(line))
    ensures Classify(line) == RelativeReference ==> RewriteLine(signer, line) != line
    ensures Newline !in line ==> Newline !in RewriteLine(signer, line)
  {
    RewriteUnchangedIff(signer, line);
  }

  /** rewriteM3U8: split on line feeds, rewrite each line, join again. The
      output splits into exactly as many lines as the input, in the same
      order, the i-th being the rewrite of the i-th input line. */
  function RewriteM3U8(signer: Signer, content: GoString): (r: GoString)
    ensures var ins := Split(content, Newline);
      var outs := Split(r, Newline);
      && |outs| == |ins|
      && forall i | 0 <= i < |ins| :: outs[i] == RewriteLine(signer, ins[i])
  {
    var lines := Split(content, Newline);
    var rewritten := seq(|lines|, i requires 0 <= i < |lines| => RewriteLine(signer, lines[i]));
    RewrittenLinesHaveNoNewline(signer, lines, rewritten);
    SplitJoin(rewritten, Newline);
    Join(rewritten, Newline)
  }

  /** Rewriting line by line adds no line feed to any line. */
  lemma RewrittenLinesHaveNoNewline(signer: Signer, ins: seq<GoString>, outs: seq<GoString>)
    requires forall i | 0 <= i < |ins| :: Newline !in ins[i]
    requires |outs| == |ins| && forall i | 0 <= i < |ins| :: outs[i] == RewriteLine(signer, ins[i])
    ensures forall i | 0 <= i < |outs| :: Newline !in outs[i]
  {
    forall i | 0 <= i < |ins| ensures Newline !in outs[i] {
      RewriteLineFacts(signer, ins[i]);
    }
  }

  /** Lines of the third kind (neither a `URI=` directive nor a `/`
      reference) come out of the playlist rewrite byte for byte. */
  lemma RewriteM3U8Lines(signer: Signer, content: GoString)
    ensures var ins := Split(content, Newline);
      var outs := Split(RewriteM3U8(signer, content), Newline);
      && |outs| == |ins|
      && (forall i | 0 <= i < |ins| && Classify(ins[i]) == Opaque :: outs[i] == ins[i])
  {
    var ins := Split(content, Newline);
    forall i | 0 <= i < |ins| && Classify(ins[i]) == Opaque
      ensures Split(RewriteM3U8(signer, content), Newline)[i] == ins[i]
    {
      RewriteLineFacts(signer, ins[i]);
    }
  }

  /** The line count of the output equals that of the input. */
  lemma RewriteM3U8KeepsLineCount(signer: Signer, content: GoString)
    ensures CountByte(RewriteM3U8(signer, content), Newline) == CountByte(content, Newline)
  {
    RewriteM3U8Lines(signer, content);
    SplitCount(content, Newline);
    SplitCount(RewriteM3U8(signer, content), Newline);
  }
}

=== FILE: relay.dfy ===
/** What the image and video handlers share: HTTP headers, the abstract
    upstream, the outcome a handler produces, the relay's ETag, `fetchBody`
    of utils.go and the header allow-list copy.

    Upstream traffic is a function from URL and request headers to a reply;
    an outcome records which URLs were requested from upstream, in order, so
    "no upstream call" is `fetched == []`. */
module Relay {
  import opened Wrappers
  import opened GoStrings
  import opened GoErrors
  import opened Urls
  import Fnv
  import Decimal

  /** http.Header with every key in canonical form. */
  type Header = map<GoString, seq<GoString>>

  /** Header.Get: the first value of a key, or "" when it has none. */
  function HeaderGet(h: Header, key: GoString): GoString {
    if key in h && |h[key]| > 0 then h[key][0] else ""
  }

  const StatusOK: int := 200
  const StatusNotModified: int := 304
  const StatusBadRequest: int := 400
  const StatusForbidden: int := 403
  const StatusBadGateway: int := 502

  /** Header.Set canonicalises "ETag" to this key. */
  const EtagKey: GoString := "Etag"
  const IfNoneMatchKey: GoString := "If-None-Match"
  const ContentTypeKey: GoString := "Content-Type"

  /** An upstream exchange: a transport failure, or a reply whose body may
      fail while being read or closed. */
  datatype Upstream =
    | Unreachable(err: Error)
    | Reply(status: int, header: Header, body: GoString, readErr: Option<Error>, closeErr: Option<Error>)

  /** A GET to the given URL with the given request headers. */
  type Fetcher = (GoString, Header) -> Upstream

  datatype Payload =
    | NoBody
    | ErrorText(text: GoString)   // http.Error's message
    | Stream(bytes: GoString)     // upstream body copied to the client
    | Document(text: GoString)    // a rewritten playlist

  datatype Outcome = Outcome(
    status: int,
    header: Header,
    payload: Payload,
    fetched: seq<GoString>,       // upstream URLs requested, in order
    writeErrorLogged: bool)       // a failed body copy was logged as an error

  /** http.Error: a status with a short message (its own headers are not modelled). */
  function Fail(status: int, msg: GoString, fetched: seq<GoString>): (o: Outcome)
    ensures o.status == status && o.payload == ErrorText(msg) && o.fetched == fetched
  {
    Outcome(status, map[], ErrorText(msg), fetched, false)
  }

  /** The relay's ETag: the decimal text of the 64-bit FNV-1a hash of the URL.
      It is non-empty, all digits, and two URLs get the same ETag exactly when
      their hashes agree. */
  function Etag(url: GoString): (tag: GoString)
    ensures |tag| >= 1
    ensures forall k | 0 <= k < |tag| :: Decimal.IsDigit(tag[k])
  {
    Decimal.FormatUint(Fnv.Fnv1a(url) as int)
  }

  lemma EtagCollidesIff(a: GoString, b: GoString)
    ensures Etag(a) == Etag(b) <==> Fnv.Fnv1a(a) == Fnv.Fnv1a(b)
  {
    var x, y := Fnv.Fnv1a(a), Fnv.Fnv1a(b);
    Decimal.FormatInjective(x as int, y as int);
    Fnv.ToIntInjective(x, y);
  }

  /** The conditional-GET test: If-None-Match equals the ETag. A request with
      no If-None-Match never matches, since an ETag is never empty. */
  predicate EtagMatches(req: Header, url: GoString)
    ensures IfNoneMatchKey !in req ==> !EtagMatches(req, url)
  {
    HeaderGet(req, IfNoneMatchKey) == Etag(url)
  }

  /** The error http.NewRequest returns for a URL net/url cannot parse; its
      text belongs to net/url and is not modelled. */
  function InvalidUrl(url: GoString): (e: Error)
    ensures e.Wrapped? && e.msg == url
  {
    Wrapped(url, Message("invalid URL"))
  }

  /** The upstream requests a GET of `url` makes: none when the request
      cannot be built because the URL does not parse, otherwise that URL. */
  function Requested(lib: UrlLib, url: GoString): (s: seq<GoString>)
    ensures s == [] <==> lib.parse(url).None?
    ensures s != [] ==> s == [url]
  {
    if lib.parse(url).Some? then [url] else []
  }

  /** fetchBody: a URL that does not parse fails before anything is sent;
      otherwise the body of a 200 reply, and any other status is an error
      with an empty body. Closing the body runs last and, when nothing else
      failed, its error is returned next to the body. */
  function FetchBody(lib: UrlLib, fetch: Fetcher, url: GoString): (r: (GoString, Option<Error>))
    ensures lib.parse(url).None? ==> r == ([], Some(InvalidUrl(url)))
    ensures lib.parse(url).Some? && fetch(url, map[]).Unreachable? ==> r == ([], Some(fetch(url, map[]).err))
    ensures lib.parse(url).Some? && fetch(url, map[]).Reply? && fetch(url, map[]).status != StatusOK ==>
      r.0 == [] && r.1 == Some(UpstreamStatus(fetch(url, map[]).status))
    ensures r.1.None? <==> (lib.parse(url).Some? && fetch(url, map[]).Reply? && fetch(url, map[]).status == StatusOK &&
                            fetch(url, map[]).readErr.None? && fetch(url, map[]).closeErr.None?)
    ensures r.1.None? ==> r.0 == fetch(url, map[]).body
  {
    if lib.parse(url).None? then ([], Some(InvalidUrl(url)))
    else
      match fetch(url, map[])
      case Unreachable(e) => ([], Some(e))
      case Reply(status, _, body, readErr, closeErr) =>
        var c := Closer(true, closeErr);
        if status != StatusOK then ([], CheckClose(c, Some(UpstreamStatus(status))).1)
        else if readErr.Some? then ([], CheckClose(c, readErr).1)
        else (body, CheckClose(c, None).1)
  }

  /** The allow-list loop of both stream handlers: for each listed name whose
      upstream value is non-empty, Set it to that value. */
  function CopyAllowed(names: seq<GoString>, src: Header, dst: Header): (r: Header)
    ensures forall k :: k in r <==> k in dst || (k in names && HeaderGet(src, k) != "")
    ensures forall k | k in r ::
      r[k] == if k in names && HeaderGet(src, k) != "" then [HeaderGet(src, k)] else dst[k]
    decreases |names|
  {
    if |names| == 0 then dst
    else
      var k := names[0];
      var v := HeaderGet(src, k);
      var next := if v != "" then dst[k := [v]] else dst;
      assert forall n :: n in names <==> n == k || n in names[1..];
      CopyAllowed(names[1..], src, next)
  }

  /** The answer of a stream handler once upstream accepted: the allow-listed
      headers plus the ETag, the upstream status, and the body; a failed copy
      is logged unless the client went away. */
  function StreamReply(names: seq<GoString>, etag: GoString, status: int, upstreamHeader: Header,
                       body: GoString, copyErr: Option<Error>, fetched: seq<GoString>): (o: Outcome)
    ensures o.status == status && o.payload == Stream(body) && o.fetched == fetched
    ensures forall k :: k in o.header <==> k == EtagKey || (k in names && HeaderGet(upstreamHeader, k) != "")
    ensures EtagKey in o.header && o.header[EtagKey] == [etag]
    ensures forall k | k in o.header && k != EtagKey :: o.header[k] == [HeaderGet(upstreamHeader, k)]
    ensures o.writeErrorLogged <==> copyErr.Some? && !IsClientDisconnect(copyErr.value)
  {
    var h := CopyAllowed(names, upstreamHeader, map[]);
    Outcome(status, h[EtagKey := [etag]], Stream(body), fetched, copyErr.Some? && !IsClientDisconnect(copyErr.value))
  }
}

=== FILE: signing.dfy ===
/** The relay's access token: `createHMAC` of utils.go.

    The token is HMAC-SHA-256 (RFC 2104) of the data under the process-wide
    secret, hex-encoded (section 8 of RFC 4648), upper-cased and cut to its
    first 13 characters. SHA-256 and HMAC themselves are not modelled: the MAC
    is a function-valued parameter that maps key and message to 32 bytes. */
module Signing {
  import opened GoStrings
  import opened Hex

  type Digest = d: seq<Octet> | |d| == 32 witness seq(32, _ => 0)

  /** HMAC-SHA-256 as an uninterpreted function of key and message. */
  type HmacSha256 = (GoString, GoString) -> Digest

  /** The signing secret (the configured HMAC key) and the MAC primitive. */
  datatype Signer = Signer(key: GoString, mac: HmacSha256)

  const SignatureLength: nat := 13

  /** createHMAC: the upper-case hex text of the MAC, cut to 13 characters.
      The signature is therefore the upper-case hex of the MAC's first seven
      bytes, minus the last digit, and consists of 13 digits from 0-9A-F. */
  function CreateHMAC(signer: Signer, data: GoString): (sig: GoString)
    ensures |sig| == SignatureLength
    ensures forall k | 0 <= k < |sig| :: IsUpperHexDigit(sig[k])
    ensures sig == UpperHex(signer.mac(signer.key, data)[..7])[..SignatureLength]
  {
    var d := signer.mac(signer.key, data);
    UpperOfEncoding(d);
    assert UpperHex(d)[..13] == UpperHex(d[..7])[..13];
    AsciiToUpper(EncodeToString(d))[..13]
  }

  /** The check of videoProxyHandler: the token must equal the recomputed
      signature. So only a token with the shape of a signature can pass:
      tokens of another length, or with lower-case or non-hex characters,
      never do. */
  predicate Verify(signer: Signer, data: GoString, token: GoString)
    ensures Verify(signer, data, token) ==> |token| == SignatureLength
    ensures Verify(signer, data, token) ==> forall k | 0 <= k < |token| :: IsUpperHexDigit(token[k])
  {
    CreateHMAC(signer, data) == token
  }
}

=== FILE: urls.dfy ===
/** Go's url.URL as the relay uses it. Parsing, printing and host-name
    extraction belong to net/url and are not modelled: they are the three
    functions of a `UrlLib`, and `Lawful` lists the properties of them that
    the proofs rely on. */
module Urls {
  import opened Wrappers
  import opened GoStrings

  /** The fields of url.URL that the relay reads or writes. */
  datatype Url = Url(scheme: GoString, user: GoString, host: GoString, path: GoString,
                     rawQuery: GoString, fragment: GoString)

  /** url.Parse, URL.String (`format`), and URL.Hostname as a function of the host field. */
  datatype UrlLib = UrlLib(parse: GoString -> Option<Url>, format: Url -> GoString, hostname: GoString -> GoString)

  const HttpsPrefix: GoString := "https://"

  /** The query picBuildURL installs for the original-size variant. */
  const OrigQuery: GoString := "name=orig"

  /** Setting URL.RawQuery. */
  function WithQuery(u: Url, query: GoString): (r: Url)
    ensures r.rawQuery == query && r.host == u.host && r.scheme == u.scheme
    ensures r.path == u.path && r.user == u.user && r.fragment == u.fragment
  {
    u.(rawQuery := query)
  }

  function Hostname(lib: UrlLib, u: Url): GoString {
    lib.hostname(u.host)
  }

  /** Letters, digits, dots and hyphens: a host name with no port, user
      information or delimiter in it. */
  predicate IsDnsName(h: GoString) {
    |h| > 0 && forall k | 0 <= k < |h| :: 'a' <= h[k] <= 'z' || 'A' <= h[k] <= 'Z' || '0' <= h[k] <= '9' || h[k] == '.' || h[k] == '-'
  }

  /** "https://" + host + "/" + rest */
  function HttpsUrlText(host: GoString, rest: GoString): GoString {
    HttpsPrefix + host + "/" + rest
  }

  /** The behaviour of net/url the proofs assume:
      - text starting with "https://" parses to the https scheme;
      - an https URL with a host, or with a non-empty path, prints starting
        with "https://" (URL.String writes "//" after the scheme when the
        host or the path is non-empty);
      - printing a parsed URL, or a parsed URL whose query was replaced by
        the original-size query, and parsing it again gives that URL back;
      - in "https://" + h + "/" + rest, with h a plain host name, the
        authority ends at that first '/', so the host name is h
        (section 3.2 of RFC 3986). */
  ghost predicate Lawful(lib: UrlLib) {
    && (forall s :: HasPrefix(s, HttpsPrefix) && lib.parse(s).Some? ==> lib.parse(s).value.scheme == "https")
    && (forall u: Url :: u.scheme == "https" && (Hostname(lib, u) != "" || u.path != []) ==> HasPrefix(lib.format(u), HttpsPrefix))
    && (forall s, u :: lib.parse(s) == Some(u) ==> lib.parse(lib.format(u)) == Some(u))
    && (forall s, u :: lib.parse(s) == Some(u) ==>
          lib.parse(lib.format(WithQuery(u, OrigQuery))) == Some(WithQuery(u, OrigQuery)))
    && (forall h, rest :: IsDnsName(h) && lib.parse(HttpsUrlText(h, rest)).Some? ==>
          Hostname(lib, lib.parse(HttpsUrlText(h, rest)).value) == h)
  }
}

=== FILE: video.dfy ===
/** The video relay of video.go: the checks of videoProxyHandler in their
    order (decode, coarse sanity check, signature), the dispatch on the
    extension, and the three paths behind it — raw streams, playlists, and
    VMAP ad documents whose embedded playlist is fetched and rewritten. */
module Video {
  import opened Wrappers
  import opened GoStrings
  import opened GoErrors
  import opened Escape
  import opened Signing
  import opened Urls
  import opened Relay
  import opened Playlist

  /** videoProxyHeaders */
  const VideoHeaders: seq<GoString> :=
    ["Accept-Ranges", "Cache-Control", "Content-Type", "Content-Length", "Content-Range", "Expires", "Last-Modified"]

  /** Request headers passed on to the upstream of a raw stream. */
  const ForwardedKeys: seq<GoString> := ["Accept", "Accept-Encoding", "Range"]

  const PlaylistMediaType: GoString := "application/vnd.apple.mpegurl"

  /** The reference as the handler decodes it: path-decoding must succeed;
      a second, query-mode pass is applied only when it succeeds too. So the
      reference is refused exactly when some `%` lacks two hex digits, never
      grows, and text without `%` or `+` comes through unchanged. */
  function DecodeReference(raw: GoString): (r: Option<GoString>)
    ensures r.Some? <==> WellEscaped(raw)
    ensures r.Some? <==> PathUnescape(raw).Some?
    ensures r.Some? ==> |r.value| <= |raw|
    ensures '%' !in raw && '+' !in raw ==> r == Some(raw)
    ensures r.Some? && QueryUnescape(PathUnescape(raw).value).None? ==> r.value == PathUnescape(raw).value
    ensures r.Some? && QueryUnescape(PathUnescape(raw).value).Some? ==> r.value == QueryUnescape(PathUnescape(raw).value).value
  {
    UnescapeSucceedsIff(raw, false);
    assert '%' !in raw && '+' !in raw ==> PathUnescape(raw) == Some(raw) && QueryUnescape(raw) == Some(raw) by {
      if '%' !in raw && '+' !in raw {
        UnescapePlain(raw, false);
        UnescapePlain(raw, true);
      }
    }
    match PathUnescape(raw)
    case None => None
    case Some(d) =>
      match QueryUnescape(d)
      case Some(u) => Some(u)
      case None => Some(d)
  }

  /** The coarse sanity filter: the text mentions "http" somewhere and has
      a dot somewhere. */
  predicate PassesCoarseCheck(decoded: GoString)
    ensures PassesCoarseCheck(decoded) <==> (exists i :: OccursAt(decoded, "http", i)) && '.' in decoded
  {
    ContainsIff(decoded, "http");
    ContainsIff(decoded, ".");
    DotOccursIff(decoded);
    Contains(decoded, "http") && Contains(decoded, ".")
  }

  /** A one-byte text occurs exactly where that byte stands. */
  lemma DotOccursIff(s: GoString)
    ensures (exists i :: OccursAt(s, ".", i)) <==> '.' in s
  {
    if '.' in s {
      var i :| 0 <= i < |s| && s[i] == '.';
      assert OccursAt(s, ".", i);
    }
    if exists i :: OccursAt(s, ".", i) {
      var i :| OccursAt(s, ".", i);
      assert s[i] == s[i..i + 1][0];
    }
  }

  /** The extension: what follows the last dot, cut at the first '?'. A text
      without a dot is taken whole. */
  function Extension(decoded: GoString): (ext: GoString)
    ensures '.' !in ext
    ensures !Contains(ext, "?")
  {
    var after := decoded[LastIndexByte(decoded, '.') + 1..];
    AfterLastByte(decoded, '.');
    CutHeadAvoids(after, '?');
    var ext := Cut(after, "?").0;
    PrefixAvoids(after, |ext|, '.');
    ext
  }

  /** A reference whose last dot is followed by ext, optionally followed by
      a query without a dot, has extension ext. */
  lemma ExtensionOfName(s: GoString, dot: nat, ext: GoString, query: GoString)
    requires dot < |s| && s[dot] == '.' && s[dot + 1..] == ext + query
    requires '.' !in ext && '?' !in ext
    requires query == [] || (query[0] == '?' && '.' !in query)
    ensures Extension(s) == ext
  {
    var tail := s[dot + 1..];
    forall k | dot < k < |s| ensures s[k] != '.' {
      assert s[k] == tail[k - dot - 1];
    }
    LastIndexByteAt(s, '.', dot);
    CutBeforeQuery(ext, query);
  }

  /** Cutting ext + query at the first '?' gives ext. */
  lemma CutBeforeQuery(ext: GoString, query: GoString)
    requires '?' !in ext
    requires query == [] || query[0] == '?'
    ensures Cut(ext + query, "?").0 == ext
  {
    var after := ext + query;
    forall j | 0 <= j < |ext| ensures !OccursAt(after, "?", j) {
      assert after[j] == ext[j];
    }
    if query == [] {
      assert after == ext;
      ContainsIff(after, "?");
    } else {
      assert OccursAt(after, "?", |ext|);
      assert Index(after, "?") == |ext|;
      assert after == ext + "?" + Cut(after, "?").1;
      assert after[..|ext|] == ext;
    }
  }

  datatype Route = StreamRoute | PlaylistRoute | VmapRoute | Unsupported

  /** The switch on the extension. */
  function RouteOf(ext: GoString): (r: Route)
    ensures r == StreamRoute <==> ext in ["mp4", "ts", "m4s"]
    ensures r == PlaylistRoute <==> ext == "m3u8"
    ensures r == VmapRoute <==> ext == "vmap"
  {
    if ext == "mp4" || ext == "ts" || ext == "m4s" then StreamRoute
    else if ext == "m3u8" then PlaylistRoute
    else if ext == "vmap" then VmapRoute
    else Unsupported
  }

  /** The Accept, Accept-Encoding and Range headers of the client request
      that are non-empty, added to an otherwise empty upstream request. */
  function ForwardHeaders(req: Header): (h: Header)
    ensures forall k :: k in h <==> k in ForwardedKeys && HeaderGet(req, k) != ""
    ensures forall k | k in h :: h[k] == [HeaderGet(req, k)]
  {
    CopyAllowed(ForwardedKeys, req, map[])
  }

  /** The part of proxyVideoStream after the upstream call: a transport
      failure is a 502; any status above 299 is passed on as an error;
      otherwise (206 Partial Content included) the allow-listed headers, the
      ETag and the body are relayed under the upstream status. */
  function StreamUpstream(videoURL: GoString, up: Upstream, copyErr: Option<Error>): (o: Outcome)
    ensures o.fetched == [videoURL]
    ensures up.Unreachable? ==> o == Fail(StatusBadGateway, "Proxy Error", [videoURL])
    ensures up.Reply? && up.status > 299 ==> o == Fail(up.status, "Upstream Error", [videoURL])
    ensures up.Reply? && up.status <= 299 ==>
      o == StreamReply(VideoHeaders, Etag(videoURL), up.status, up.header, up.body, copyErr, [videoURL])
    ensures up.Reply? && up.status <= 299 ==>
      && o.status == up.status && o.payload == Stream(up.body)
      && (forall k :: k in o.header <==> k == EtagKey || (k in VideoHeaders && HeaderGet(up.header, k) != ""))
      && (forall k | k in o.header && k != EtagKey :: o.header[k] == [HeaderGet(up.header, k)])
      && (o.writeErrorLogged <==> copyErr.Some? && !IsClientDisconnect(copyErr.value))
    ensures o.payload.Stream? ==> o.status <= 299 && EtagKey in o.header && o.header[EtagKey] == [Etag(videoURL)]
    ensures o.payload.Stream? ==> forall k | k in o.header :: k == EtagKey || k in VideoHeaders
  {
    match up
    case Unreachable(_) => Fail(StatusBadGateway, "Proxy Error", [videoURL])
    case Reply(status, header, body, _, _) =>
      if status > 299 then Fail(status, "Upstream Error", [videoURL])
      else StreamReply(VideoHeaders, Etag(videoURL), status, header, body, copyErr, [videoURL])
  }

  /** proxyVideoStream. A matching If-None-Match is answered 304 without an
      upstream call; a URL the request constructor cannot parse is a 400;
      otherwise the URL is fetched once, with the forwarded headers. */
  function ProxyVideoStream(lib: UrlLib, videoURL: GoString, req: Header, fetch: Fetcher,
                            copyErr: Option<Error>): (o: Outcome)
    ensures EtagMatches(req, videoURL) ==> o == Outcome(StatusNotModified, map[], NoBody, [], false)
    ensures !EtagMatches(req, videoURL) && lib.parse(videoURL).None? ==> o == Fail(StatusBadRequest, "Invalid URL", [])
    ensures !EtagMatches(req, videoURL) && lib.parse(videoURL).Some? ==>
      o == StreamUpstream(videoURL, fetch(videoURL, ForwardHeaders(req)), copyErr)
    ensures o.fetched == [] <==> EtagMatches(req, videoURL) || lib.parse(videoURL).None?
    ensures o.fetched == [] || o.fetched == [videoURL]
    ensures o.payload == NoBody <==> EtagMatches(req, videoURL)
  {
    if HeaderGet(req, IfNoneMatchKey) == Etag(videoURL) then Outcome(StatusNotModified, map[], NoBody, [], false)
    else if lib.parse(videoURL).None? then Fail(StatusBadRequest, "Invalid URL", [])
    else StreamUpstream(videoURL, fetch(videoURL, ForwardHeaders(req)), copyErr)
  }

  /** A 304 is not only the ETag short-circuit: an upstream 304 is above 299
      and is passed on as an error with that status, after the fetch. */
  lemma UpstreamNotModifiedPassedOn(lib: UrlLib, videoURL: GoString, req: Header, fetch: Fetcher,
                                    copyErr: Option<Error>)
    requires !EtagMatches(req, videoURL) && lib.parse(videoURL).Some?
    requires fetch(videoURL, ForwardHeaders(req)).Reply? && fetch(videoURL, ForwardHeaders(req)).status == StatusNotModified
    ensures var o := ProxyVideoStream(lib, videoURL, req, fetch, copyErr);
      o.status == StatusNotModified && o.fetched == [videoURL] && o.payload == ErrorText("Upstream Error")
  {
  }

  /** A rewritten playlist served with the HLS media type. A failed write is
      always logged, even when the client went away. */
  function ServePlaylist(signer: Signer, content: GoString, fetched: seq<GoString>, writeErr: Option<Error>): (o: Outcome)
    ensures o.status == StatusOK && o.fetched == fetched
    ensures o.header == map[ContentTypeKey := [PlaylistMediaType]]
    ensures o.payload == Document(RewriteM3U8(signer, content))
    ensures o.writeErrorLogged <==> writeErr.Some?
    ensures EtagKey !in o.header
    ensures CountByte(o.payload.text, Newline) == CountByte(content, Newline)
    ensures var ins := Split(content, Newline);
      var outs := Split(o.payload.text, Newline);
      && |outs| == |ins|
      && forall i | 0 <= i < |ins| && Classify(ins[i]) == Opaque :: outs[i] == ins[i]
  {
    RewriteM3U8KeepsLineCount(signer, content);
    RewriteM3U8Lines(signer, content);
    Outcome(StatusOK, map[ContentTypeKey := [PlaylistMediaType]], Document(RewriteM3U8(signer, content)), fetched, writeErr.Some?)
  }

  /** proxyM3U8: any fetch error is a 502; otherwise the rewritten playlist.
      A URL that does not parse is refused before anything is sent. */
  function ProxyM3U8(lib: UrlLib, signer: Signer, m3u8URL: GoString, fetch: Fetcher, writeErr: Option<Error>): (o: Outcome)
    ensures o.fetched == Requested(lib, m3u8URL)
    ensures lib.parse(m3u8URL).None? ==> o == Fail(StatusBadGateway, "Proxy Error", [])
    ensures FetchBody(lib, fetch, m3u8URL).1.Some? ==> o == Fail(StatusBadGateway, "Proxy Error", o.fetched)
    ensures FetchBody(lib, fetch, m3u8URL).1.None? ==>
      o == ServePlaylist(signer, fetch(m3u8URL, map[]).body, [m3u8URL], writeErr)
  {
    var (body, err) := FetchBody(lib, fetch, m3u8URL);
    if err.Some? then Fail(StatusBadGateway, "Proxy Error", Requested(lib, m3u8URL))
    else ServePlaylist(signer, body, [m3u8URL], writeErr)
  }

  const UrlOpen: GoString := "url=\""
  const M3U8Marker: GoString := ".m3u8"

  /** The regular expression url="([^"]+\.m3u8[^"]*)" matched at the start
      of `s`. Its group cannot hold a quote and must be followed by one, so a
      match always ends at the first quote after `url="`; the group is that
      quote-free span, and the pattern asks ".m3u8" to occur in it after at
      least one byte. */
  function VmapMatchAt(s: GoString): Option<GoString> {
    if HasPrefix(s, UrlOpen) then
      var q := IndexByte(s[5..], Quote);
      if q >= 1 && Contains(s[6..5 + q], M3U8Marker) then Some(s[5..5 + q]) else None
    else None
  }

  /** A match is a quote-free value that mentions ".m3u8", and the matched
      text is exactly `url="` + value + `"`. */
  lemma VmapMatchSound(s: GoString)
    ensures VmapMatchAt(s).Some? ==>
      var v := VmapMatchAt(s).value;
      && Quote !in v && Contains(v, M3U8Marker) && |v| >= 6
      && |s| >= |v| + 6 && s[..|v| + 6] == UrlOpen + v + "\""
  {
    if VmapMatchAt(s).Some? {
      var q := IndexByte(s[5..], Quote);
      var v := s[5..5 + q];
      assert s[6..5 + q] == v[1..];
      ContainsExtended([v[0]], v[1..], [], M3U8Marker);
      assert [v[0]] + v[1..] + [] == v;
      assert s[..q + 6] == UrlOpen + v + "\"";
      var k := Index(v[1..], M3U8Marker);
      assert v[1..][k..k + 5] == M3U8Marker;
    }
  }

  /** ... and every such value is matched. */
  lemma VmapMatchExact(v: GoString, rest: GoString)
    requires |v| >= 1 && Quote !in v && Contains(v[1..], M3U8Marker)
    ensures VmapMatchAt(UrlOpen + v + "\"" + rest) == Some(v)
  {
    var s := UrlOpen + v + "\"" + rest;
    var t := s[5..];
    assert s[..5] == UrlOpen;
    assert t == v + "\"" + rest;
    assert t[|v|] == Quote;
    assert t[..|v|] == v;
    var q := IndexByte(t, Quote);
    assert q == |v|;
    assert s[5..5 + q] == v;
    assert s[6..5 + q] == v[1..];
  }

  /** Where the leftmost match starts, searching from `from` on; -1 if none. */
  function VmapMatchIndex(s: GoString, from: nat): (i: int)
    requires from <= |s|
    ensures i == -1 || (from <= i < |s| && VmapMatchAt(s[i..]).Some?)
    ensures forall j | from <= j < |s| && (i == -1 || j < i) :: VmapMatchAt(s[j..]).None?
    decreases |s| - from
  {
    if from == |s| then -1
    else if VmapMatchAt(s[from..]).Some? then from
    else VmapMatchIndex(s, from + 1)
  }

  /** FindStringSubmatch: the group of the leftmost match. */
  function FindVmapM3U8(s: GoString): (r: Option<GoString>)
    ensures r.None? <==> forall i | 0 <= i < |s| :: VmapMatchAt(s[i..]).None?
  {
    var i := VmapMatchIndex(s, 0);
    if i < 0 then None else VmapMatchAt(s[i..])
  }

  /** What the VMAP path extracts: a quote-free value mentioning ".m3u8"
      that stands in the document as `url="` + value + `"`. */
  lemma FoundVmapValue(s: GoString)
    requires FindVmapM3U8(s).Some?
    ensures var v := FindVmapM3U8(s).value;
      Quote !in v && Contains(v, M3U8Marker) && Contains(s, UrlOpen + v + "\"")
  {
    var v := FindVmapM3U8(s).value;
    var i := VmapMatchIndex(s, 0);
    VmapMatchSound(s[i..]);
    assert s[i..][..|v| + 6] == s[i..i + |v| + 6];
    assert OccursAt(s, UrlOpen + v + "\"", i);
    ContainsIff(s, UrlOpen + v + "\"");
  }

  /** A document holding one `url="…m3u8…"` attribute, after text where no
      match starts, yields exactly that value. */
  lemma VmapFindsFirst(pre: GoString, v: GoString, post: GoString)
    requires |v| >= 1 && Quote !in v && Contains(v[1..], M3U8Marker)
    requires forall j | 0 <= j < |pre| :: VmapMatchAt((pre + UrlOpen + v + "\"" + post)[j..]).None?
    ensures FindVmapM3U8(pre + UrlOpen + v + "\"" + post) == Some(v)
  {
    var s := pre + UrlOpen + v + "\"" + post;
    assert s[|pre|..] == UrlOpen + v + "\"" + post;
    VmapMatchExact(v, post);
    var i := VmapMatchIndex(s, 0);
    assert i == |pre|;
  }

  /** An outcome preceded by one more upstream request. */
  function AfterFetch(url: GoString, o: Outcome): (r: Outcome)
    ensures r.fetched == [url] + o.fetched
    ensures r.(fetched := o.fetched) == o
  {
    o.(fetched := [url] + o.fetched)
  }

  /** proxyVMAP: fetch the ad document and extract the embedded playlist
      URL; from there on it is proxyM3U8 on that URL as it stands, after the
      VMAP request. The VMAP URL is requested only when it parses. */
  function ProxyVMAP(lib: UrlLib, signer: Signer, vmapURL: GoString, fetch: Fetcher, writeErr: Option<Error>): (o: Outcome)
    ensures var (body, err) := FetchBody(lib, fetch, vmapURL);
      && (err.Some? ==> o == Fail(StatusBadGateway, "Proxy Error", Requested(lib, vmapURL)))
      && (err.None? && FindVmapM3U8(body).None? ==> o == Fail(StatusBadGateway, "No M3U8 in VMAP", [vmapURL]))
      && (err.None? && FindVmapM3U8(body).Some? ==>
            o == AfterFetch(vmapURL, ProxyM3U8(lib, signer, FindVmapM3U8(body).value, fetch, writeErr)))
    ensures o.fetched == [] <==> lib.parse(vmapURL).None?
    ensures |o.fetched| <= 2 && (o.fetched != [] ==> o.fetched[0] == vmapURL)
  {
    var (body, err) := FetchBody(lib, fetch, vmapURL);
    if err.Some? then Fail(StatusBadGateway, "Proxy Error", Requested(lib, vmapURL))
    else
      match FindVmapM3U8(body)
      case None => Fail(StatusBadGateway, "No M3U8 in VMAP", [vmapURL])
      case Some(m) => AfterFetch(vmapURL, ProxyM3U8(lib, signer, m, fetch, writeErr))
  }

  /** The dispatch on the extension of a reference that passed every check. */
  function Dispatch(lib: UrlLib, signer: Signer, decoded: GoString, req: Header, fetch: Fetcher,
                    copyErr: Option<Error>): (o: Outcome)
    ensures RouteOf(Extension(decoded)) == Unsupported <==> o == Fail(StatusBadRequest, "Unsupported format", [])
    ensures RouteOf(Extension(decoded)) == StreamRoute ==> o == ProxyVideoStream(lib, decoded, req, fetch, copyErr)
    ensures RouteOf(Extension(decoded)) == PlaylistRoute ==> o == ProxyM3U8(lib, signer, decoded, fetch, copyErr)
    ensures RouteOf(Extension(decoded)) == VmapRoute ==> o == ProxyVMAP(lib, signer, decoded, fetch, copyErr)
  {
    match RouteOf(Extension(decoded))
    case StreamRoute => ProxyVideoStream(lib, decoded, req, fetch, copyErr)
    case PlaylistRoute => ProxyM3U8(lib, signer, decoded, fetch, copyErr)
    case VmapRoute => ProxyVMAP(lib, signer, decoded, fetch, copyErr)
    case Unsupported => Fail(StatusBadRequest, "Unsupported format", [])
  }

  /** videoProxyHandler, given the two path values `sig` and `url`. The checks
      run in order and each failure answers before any upstream call: a
      reference that does not decode or fails the sanity check is a 400, a
      wrong signature is a 403 whatever the extension, and only a reference
      carrying its own signature reaches the dispatch. */
  function VideoHandler(lib: UrlLib, signer: Signer, sig: GoString, rawURL: GoString, req: Header,
                        fetch: Fetcher, copyErr: Option<Error>): (o: Outcome)
    ensures DecodeReference(rawURL).None? ==> o == Fail(StatusBadRequest, "Invalid URL", [])
    ensures DecodeReference(rawURL).Some? && !PassesCoarseCheck(DecodeReference(rawURL).value) ==>
      o == Fail(StatusBadRequest, "Invalid URL", [])
    ensures (DecodeReference(rawURL).Some? && PassesCoarseCheck(DecodeReference(rawURL).value) &&
             !Verify(signer, DecodeReference(rawURL).value, sig)) ==> o == Fail(StatusForbidden, "Forbidden", [])
    ensures (DecodeReference(rawURL).Some? && PassesCoarseCheck(DecodeReference(rawURL).value) &&
             Verify(signer, DecodeReference(rawURL).value, sig)) ==>
      o == Dispatch(lib, signer, DecodeReference(rawURL).value, req, fetch, copyErr)
    ensures (o.fetched != [] || o.status == StatusNotModified) ==>
      DecodeReference(rawURL).Some? && Verify(signer, DecodeReference(rawURL).value, sig) &&
      o == Dispatch(lib, signer, DecodeReference(rawURL).value, req, fetch, copyErr)
  {
    match DecodeReference(rawURL)
    case None => Fail(StatusBadRequest, "Invalid URL", [])
    case Some(decoded) =>
      if !PassesCoarseCheck(decoded) then Fail(StatusBadRequest, "Invalid URL", [])
      else if CreateHMAC(signer, decoded) != sig then Fail(StatusForbidden, "Forbidden", [])
      else Dispatch(lib, signer, decoded, req, fetch, copyErr)
  }

  /** The full URL of a reference that does not start with "http" is on the
      video host, so it passes the sanity check. */
  lemma RelativeReferencePassesCoarseCheck(path: GoString)
    requires !HasPrefix(path, "http")
    ensures PassesCoarseCheck(FullVideoUrl(path))
  {
    var full := FullVideoUrl(path);
    assert full[..4] == "http";
    assert full[13..14] == ".";
    assert OccursAt(full, "http", 0) && OccursAt(full, ".", 13);
    ContainsIff(full, "http");
    ContainsIff(full, ".");
  }

  /** A reference with no `%` or `+` survives both decoding passes of the
      relay path it was minted into, whether the router hands over the
      escaped text or its path-decoding, in which each space has become a
      `+`; text that is already plain decodes to itself. */
  lemma MintedReferenceDecodes(full: GoString)
    requires '%' !in full && '+' !in full
    ensures DecodeReference(QueryEscape(full)) == Some(full)
    ensures PathUnescape(QueryEscape(full)) == Some(SpaceToPlus(full))
    ensures DecodeReference(SpaceToPlus(full)) == Some(full)
    ensures DecodeReference(full) == Some(full)
  {
    PathUnescapeOfQueryEscapeAny(full);
    QueryUnescapeOfSpaceToPlus(full);
    var t := SpaceToPlus(full);
    assert '%' !in t by {
      forall k | 0 <= k < |t| ensures t[k] != '%' {
        assert full[k] in full;
      }
    }
    UnescapePlain(t, false);
    UnescapePlain(full, false);
    UnescapePlain(full, true);
  }

  /** Signing and checking agree: the relay URL a playlist rewrite mints for a
      reference is accepted by the handler and dispatched on that reference's
      full URL, provided the full URL passes the sanity check and holds no
      `%` or `+`. This holds for the escaped path segment and for the
      segment as the router path-decodes it. */
  lemma MintedUrlAccepted(lib: UrlLib, signer: Signer, path: GoString, req: Header, fetch: Fetcher,
                          copyErr: Option<Error>)
    requires PassesCoarseCheck(FullVideoUrl(path))
    requires '%' !in FullVideoUrl(path) && '+' !in FullVideoUrl(path)
    ensures var r := MakeVideoProxyURL(signer, path);
      var full := FullVideoUrl(path);
      && VideoHandler(lib, signer, r[7..20], r[21..], req, fetch, copyErr) == Dispatch(lib, signer, full, req, fetch, copyErr)
      && PathUnescape(r[21..]) == Some(SpaceToPlus(full))
      && VideoHandler(lib, signer, r[7..20], SpaceToPlus(full), req, fetch, copyErr) == Dispatch(lib, signer, full, req, fetch, copyErr)
      && VideoHandler(lib, signer, r[7..20], full, req, fetch, copyErr) == Dispatch(lib, signer, full, req, fetch, copyErr)
  {
    var full := FullVideoUrl(path);
    var r := MakeVideoProxyURL(signer, path);
    MintedReferenceDecodes(full);
    QueryRoundTrip(full);
  }

  /** The sanity check is not implied by minting: an absolute reference with
      no dot (and no `%` or `+`), such as http://localhost/seg, decodes back
      to itself and is then refused as an invalid URL, whichever signature
      comes with it and whether or not the router path-decoded it. */
  lemma DotlessMintedUrlRefused(lib: UrlLib, signer: Signer, sig: GoString, full: GoString, req: Header,
                                fetch: Fetcher, copyErr: Option<Error>)
    requires '.' !in full && '%' !in full && '+' !in full
    ensures VideoHandler(lib, signer, sig, QueryEscape(full), req, fetch, copyErr) ==
      Fail(StatusBadRequest, "Invalid URL", [])
    ensures VideoHandler(lib, signer, sig, SpaceToPlus(full), req, fetch, copyErr) ==
      Fail(StatusBadRequest, "Invalid URL", [])
  {
    MintedReferenceDecodes(full);
  }

  /** The other side of the second decoding pass: for a reference holding a
      `+` (and no `%` or space), what the handler checks the signature
      against is not the URL that was signed, under either router behaviour. */
  lemma PlusInReferenceChangesCheckedText(full: GoString)
    requires '%' !in full && ' ' !in full && '+' in full
    ensures DecodeReference(QueryEscape(full)) == QueryUnescape(full)
    ensures DecodeReference(full) == QueryUnescape(full)
    ensures QueryUnescape(full) != Some(full)
  {
    PathUnescapeOfQueryEscape(full);
    UnescapePlain(full, false);
    QueryUnescapePlusToSpace(full);
    QueryUnescapeChangesPlus(full);
  }

  /** End to end: a relative line of a fetched playlist (without `%` or `+`)
      comes out of the rewrite as a relay URL that the handler accepts and
      dispatches on the line's URL on the video host, under either router
      behaviour. */
  lemma RewrittenLineAccepted(lib: UrlLib, signer: Signer, content: GoString, i: nat,
                              req: Header, fetch: Fetcher, copyErr: Option<Error>)
    requires i < |Split(content, Newline)|
    requires var line := Split(content, Newline)[i];
      Classify(line) == RelativeReference && '%' !in line && '+' !in line
    ensures var line := Split(content, Newline)[i];
      var outs := Split(RewriteM3U8(signer, content), Newline);
      && i < |outs| && |outs[i]| >= 21
      && VideoHandler(lib, signer, outs[i][7..20], outs[i][21..], req, fetch, copyErr) ==
           Dispatch(lib, signer, VideoHost + line, req, fetch, copyErr)
      && PathUnescape(outs[i][21..]) == Some(SpaceToPlus(VideoHost + line))
      && VideoHandler(lib, signer, outs[i][7..20], SpaceToPlus(VideoHost + line), req, fetch, copyErr) ==
           Dispatch(lib, signer, VideoHost + line, req, fetch, copyErr)
  {
    var line := Split(content, Newline)[i];
    assert Split(RewriteM3U8(signer, content), Newline)[i] == MakeVideoProxyURL(signer, line);
    RelativeLineAccepted(lib, signer, line, req, fetch, copyErr);
  }

  /** The relay URL minted for a relative reference is accepted, whether the
      router hands over its escaped reference or the path-decoded one. */
  lemma RelativeLineAccepted(lib: UrlLib, signer: Signer, line: GoString, req: Header, fetch: Fetcher,
                             copyErr: Option<Error>)
    requires HasPrefix(line, "/") && '%' !in line && '+' !in line
    ensures var r := MakeVideoProxyURL(signer, line);
      && VideoHandler(lib, signer, r[7..20], r[21..], req, fetch, copyErr) ==
           Dispatch(lib, signer, VideoHost + line, req, fetch, copyErr)
      && PathUnescape(r[21..]) == Some(SpaceToPlus(VideoHost + line))
      && VideoHandler(lib, signer, r[7..20], SpaceToPlus(VideoHost + line), req, fetch, copyErr) ==
           Dispatch(lib, signer, VideoHost + line, req, fetch, copyErr)
  {
    assert !HasPrefix(line, "http") by { assert line[0] == '/'; }
    RelativeReferencePassesCoarseCheck(line);
    VideoHostUrlPlain(line);
    MintedUrlAccepted(lib, signer, line, req, fetch, copyErr);
  }

  lemma VideoHostUrlPlain(line: GoString)
    requires '%' !in line && '+' !in line
    ensures '%' !in VideoHost + line && '+' !in VideoHost + line
  {
    assert '%' !in VideoHost && '+' !in VideoHost;
  }
}

=== FILE: wrappers.dfy ===
/** Optional values, used wherever the Go code returns a value together with
    an error or an `ok` flag. */
module Wrappers {
  datatype Option<+T> = None | Some(value: T)
}
